=== FILE: README.md ===
# Xonotic by the numbers: the monthly charts

`xonotic_by_the_numbers.py` queries the XonStat database for one year and
draws a bar chart per report. Four of them are modelled:

- games per month, stacked by game type;
- distinct players per month, as single bars;
- weapon damage per month, stacked by weapon;
- weapon frags per month, stacked by weapon.

The three stacked reports share one procedure, which differs only in its constants:

1. Take the distinct month labels and categories of the query result, in
   first-appearance order.
2. Keep a running total per month (`bottoms`).
3. For each category, draw its bar on the current totals.
4. Look up each month's value for that category and write it inside the
   segment when it is above a threshold.
5. Add the value to the month's total.
6. Finally set the y limit to the largest total plus a headroom, and write
   each month's total above its stack.

The model:

- `Charts.StackedBars` is that procedure, written once as an imperative
  method parameterised by a `StackStyle`:
  - the label threshold;
  - the label scale: as is, or in thousands under Python 2 floor division;
  - the headroom;
  - the total-label offset;
  - the colouring: palette slices for game types, the weapon colour table for weapons.
- Drawing is an append-only log of commands on an `Axes` object:
  - a segment (legend, colour, slot, base, height);
  - an inline or total label (slot, y, value);
  - the y limit.
- The running totals are an `array<int>` that the layer loop updates in place.
- Each method is proved against a specification function:
  - `Chart` for the stacked reports;
  - `PlayersChart` for the players report.
- The lemmas in `ChartFacts`, `Players` and `Reports` state what those functions promise.

Modules, one per file:

- `Wrappers`: Option and Result.
- `Decimal`: integer-to-decimal text and back.
- `Sequences`: pandas' `unique()`, `max()`.
- `Styles`: the palette and the weapon colour table.
- `QueryRanges`: the date bounds of the queries and the timestamps they select.
- `Frames`: query rows and the pandas selections on them.
- `Charts`: the stacked procedure.
- `ChartFacts`: what a drawn chart shows.
- `Players`: the players report.
- `Reports`: the per-report constants, query ranges and a worked example.

The query results are inputs. Each row of a stacked report is a `Row(category, month, value)` and
each players row a `MonthCount(month, count)`. A chart fails (`Status.Failed`) in these cases:

- A weapon is not in the colour table: the KeyError.
- A game type is the eleventh or later: its palette slice is empty and
  matplotlib rejects the colour `#`.
- A (category, month) pair does not have exactly one row. The chart
  fails at the `bar` call (line 95) when the category's rows and the
  months differ in number, and otherwise at `int()` (line 106), a
  Series that is not a single value.
- A layer's heights and the bar positions differ in length. The model
  fails at the `bar` call; matplotlib fails there too unless one side has
  length 1, in which case it broadcasts and a lookup after it fails
  instead (see "Left out").
- The result is empty: `min(tick_pos)` at line 126 (line 194 for players)
  raises on the empty list of positions.

A missing (category, month) pair is not read as 0: the chart fails,
at the `bar` call (line 95) when the category's rows and the months differ
in number, otherwise at `int()` (line 106) on the empty selection.

## Model

| member | source | states |
|---|---|---|
| Sequences.Unique | xonotic_by_the_numbers.py:67 | `unique()` yields each value at most once, never more values than the input, and nothing only for empty input |
| Sequences.UniqueSameValues | xonotic_by_the_numbers.py:67 | `unique()` keeps exactly the values of its input |
| Sequences.UniqueKeepsFirstOccurrenceOrder | xonotic_by_the_numbers.py:88 | distinct values come in first-appearance order (not sorted): an earlier distinct value occurs before any occurrence of a later one |
| Sequences.UniqueOfDistinct | xonotic_by_the_numbers.py:164 | a column without repeats is its own `unique()` |
| Sequences.UniqueFullLengthDistinct | xonotic_by_the_numbers.py:164 | if `unique()` drops nothing, the column had no repeats |
| Sequences.MaxOf | xonotic_by_the_numbers.py:129 | `max()` of a non-empty list is one of its elements and at least every element |
| Sequences.DistinctDrawnFromAtMost | xonotic_by_the_numbers.py:53 | distinct values drawn from n distinct values are at most n |
| Decimal.IntRoundTrip | xonotic_by_the_numbers.py:56 | the decimal text `format` writes for a year parses back to that year |
| Styles.Slice | xonotic_by_the_numbers.py:90 | Python slicing `s[lo:hi]`: bounds clipped to the length, reversed ranges empty, characters taken from `lo` on |
| Styles.PaletteChunkShape | xonotic_by_the_numbers.py:80-90 | chunks 0..9 are the ten 6-character slices of the palette; past them the slice is empty |
| Styles.GameColorsDistinct | xonotic_by_the_numbers.py:80-100 | the first ten layer colours of the games chart are pairwise different |
| Styles.GameColorPrefix | xonotic_by_the_numbers.py:100 | a game colour is `#` plus 6 characters, starting with its chunk's first two digits |
| Styles.ChunkPrefixesDistinct | xonotic_by_the_numbers.py:80 | the ten palette chunks already differ in their first two digits |
| Styles.GameTypesDistinct | xonotic_by_the_numbers.py:53 | the games query's six game types are distinct |
| Styles.PaletteChunk | xonotic_by_the_numbers.py:90 | `colors[i*6:i*6+6]` is six characters for chunks 0..9 and empty past them, and character k is palette character 6i+k |
| Styles.GameColor | xonotic_by_the_numbers.py:100 | `'#{}'.format(bar_color)` starts with `#`; it is seven characters exactly for the first ten layers and a bare `#` after them |
| Styles.WeaponColor | xonotic_by_the_numbers.py:306 | `weapon_colors[weapon_cd]`: a weapon in the table gets exactly its own table entry, any other code gets none (the KeyError) |
| Styles.WeaponTableShape | xonotic_by_the_numbers.py:15-41 | a weapon has a colour exactly when it is a key of the table, and every colour is `#` plus six characters |
| Styles.RenamedWeaponsShareColor | xonotic_by_the_numbers.py:16-40 | each old and new name of a renamed weapon (laser/blaster, nex/vortex, ...) has the same colour |
| QueryRanges.NewYear | xonotic_by_the_numbers.py:56 | `'{}-01-01'.format(year)` is a New Year bound that names `year` again |
| QueryRanges.MonthLabel | xonotic_by_the_numbers.py:49 | `to_char(create_dt, 'Mon')` is a three-letter label |
| QueryRanges.MonthLabelNamesMonth | xonotic_by_the_numbers.py:49 | two timestamps share a month label exactly when they are in the same month of the year, whatever the year |
| QueryRanges.BetweenAsWritten | xonotic_by_the_numbers.py:52 | the inclusive `between` keeps everything the half-open range keeps, and beyond it only the upper bound's midnight |
| QueryRanges.YearRange | xonotic_by_the_numbers.py:52-56 | the games/players bounds name the report year and the next year |
| QueryRanges.WeaponRangeAsWritten | xonotic_by_the_numbers.py:270-275 | as written, the weapon bounds name 2016 and 2017 whatever the year |
| QueryRanges.WeaponRangeIgnoresYear | xonotic_by_the_numbers.py:270-275 | for any year but 2016 the weapon bounds differ from the report year's, and equal 2016's |
| QueryRanges.WeaponRange | xonotic_by_the_numbers.py:275 | the intended weapon bounds name the report year and the next year |
| QueryRanges.BetweenAdmitsNextNewYear | xonotic_by_the_numbers.py:52 | the inclusive `between` also keeps midnight of the next New Year, whose month is labelled "Jan" like the report year's January |
| QueryRanges.WithinYearRangeIsCalendarYear | xonotic_by_the_numbers.py:52 | the half-open filter on a year's bounds keeps exactly that year's timestamps |
| Frames.MonthColumn | xonotic_by_the_numbers.py:67 | `df["month"]` has one entry per row, the row's month |
| Frames.CategoryColumn | xonotic_by_the_numbers.py:88 | the category column has one entry per row, the row's category |
| Frames.Months | xonotic_by_the_numbers.py:67 | `df["month"].unique()` holds each month label of the result once and nothing else |
| Frames.Categories | xonotic_by_the_numbers.py:88 | the distinct categories hold each category of the result once and nothing else |
| Frames.CategoryRows | xonotic_by_the_numbers.py:92 | `df[df.game_type_cd == c]` keeps only rows of category c, never more than the result has |
| Frames.CategoryRowsAppend | xonotic_by_the_numbers.py:92 | selecting a category distributes over concatenation: the selection of `a + b` is that of `a` followed by that of `b` |
| Frames.CategoryRowsSnoc | xonotic_by_the_numbers.py:92 | a further row is kept, at the end, exactly when its category is c; with the empty case this makes the selection every c-row in query order |
| Frames.CategoryRowsCount | xonotic_by_the_numbers.py:92 | no c-row is dropped: the selection has as many rows as the category column has entries c |
| Frames.CategoryRowIsRow | xonotic_by_the_numbers.py:92 | every selected row is a row of the result |
| Frames.Values | xonotic_by_the_numbers.py:96 | the metric column has one entry per row, the row's value |
| Frames.Matches | xonotic_by_the_numbers.py:106 | `segment_df[df.month == month]` selects at most as many values as there are rows; `MatchesAreRows` says which |
| Frames.Lookup | xonotic_by_the_numbers.py:106 | `int(segment_df[df.month == month]['count'])` succeeds exactly when one row matches, and yields that row's value; otherwise it says whether no row or several rows matched |
| Frames.MatchesAreRows | xonotic_by_the_numbers.py:106 | the matched values are exactly the values of rows with that category and month |
| Frames.MatchesCountMonthOccurrences | xonotic_by_the_numbers.py:106 | the number of matches is how often the month occurs among the category's rows |
| Frames.CompleteMeansOneRowPerMonth | xonotic_by_the_numbers.py:95-106 | when every pair has one row, each category has as many rows as there are months, so its bar has the right length |
| Frames.TwoMatchingRows | xonotic_by_the_numbers.py:106 | two rows with the same category and month give at least two matches |
| Frames.DuplicatePairBreaksComplete | xonotic_by_the_numbers.py:106 | a repeated (category, month) pair makes the result incomplete |
| Frames.MatchSumIsColumnSum | xonotic_by_the_numbers.py:114 | summing the matches over all categories gives the month's column sum |
| Frames.StackedSumIsMatchSum | xonotic_by_the_numbers.py:106-114 | with single matches, the stacked looked-up values equal the summed matches |
| Frames.StackTopIsColumnSum | xonotic_by_the_numbers.py:88-114 | stacking every category's value for a month gives the sum of that month's column |
| Frames.AlignedRowIsCell | xonotic_by_the_numbers.py:96-106 | when each category's rows come in month order, its k-th row holds the value looked up for month k |
| Frames.RowValueIsCell | xonotic_by_the_numbers.py:106 | a row whose pair matches once is the value the lookup returns |
| Charts.BarSegments | xonotic_by_the_numbers.py:95-102 | a `bar` call draws one segment per height |
| Charts.Axes.constructor | xonotic_by_the_numbers.py:61 | new axes have nothing drawn |
| Charts.Axes.Bar | xonotic_by_the_numbers.py:95-102 | `ax1.bar` draws one segment per position when heights and positions have equal length; on unequal lengths the model fails with nothing drawn (matplotlib broadcasts a length-1 side, see "Left out") |
| Charts.Axes.PutText | xonotic_by_the_numbers.py:111 | `ax1.text` appends exactly one label |
| Charts.Axes.SetYLimit | xonotic_by_the_numbers.py:129 | `plt.ylim` appends exactly one y limit |
| Charts.Scaled | xonotic_by_the_numbers.py:326-327 | a value is shown as is, or in thousands as Python 2's floor division `height/1000`: the r with 1000r <= v < 1000r + 1000 |
| Charts.LayerColor | xonotic_by_the_numbers.py:90-100 | a palette layer has a colour exactly when its six-character slice lies inside the palette, and it is `#` plus that slice; a table layer has one exactly when its category is a key, and it is that entry |
| Charts.GamesLayerColor | xonotic_by_the_numbers.py:90-100 | games layers 0..9 are coloured `#` plus the i-th palette chunk; layer 10 and later have no colour |
| Charts.WeaponLayerColor | xonotic_by_the_numbers.py:306 | a weapon layer (damage, and frags at line 402) is coloured by the table, and has no colour when the weapon is missing from it |
| Charts.RenderableLayersDrawable | xonotic_by_the_numbers.py:88-114 | a renderable chart has a colour and one row per month for every layer |
| Charts.LayerBaseStep | xonotic_by_the_numbers.py:114 | the next layer's base is this layer's base plus this layer's value |
| Charts.BasesOverAt | xonotic_by_the_numbers.py:83-114 | the base of bucket k is the stacked value of the earlier layers in month k |
| Charts.BasesAt | xonotic_by_the_numbers.py:83-114 | the same, over the chart's month buckets |
| Charts.InlineLabel | xonotic_by_the_numbers.py:110-111 | a bucket has at most one inline label, in its own slot, and has one exactly when its scaled value is above the threshold |
| Charts.TopLabel | xonotic_by_the_numbers.py:132-133 | a total label sits in its bucket's slot, `topOffset` above the total, and shows the total in the report's unit (floored thousands for damage) |
| Charts.Closing | xonotic_by_the_numbers.py:129-133 | the y limit clears every total by the headroom and is reached by the largest one; then one label per total |
| Charts.Chart | xonotic_by_the_numbers.py:83-133 | a renderable chart draws at least categories × months + months + 1 commands (counts of distinct values); what each segment and label is, is stated by `ChartFacts.SegmentIsCell`, `ChartFacts.BarSegmentsAt` and `ChartFacts.LabelExactlyAboveThreshold` |
| Charts.Layers | xonotic_by_the_numbers.py:88-102 | the first n layers draw at least n × months commands |
| Charts.Layer | xonotic_by_the_numbers.py:95-102 | a layer draws at least months commands |
| Charts.LayerOpensWithSegments | xonotic_by_the_numbers.py:95-102 | a layer's first commands are its bar's segments, one per month bucket in slot order |
| Charts.Totals | xonotic_by_the_numbers.py:129-133 | there is one total per month bucket |
| Charts.TopLabels | xonotic_by_the_numbers.py:132-133 | there is one total label per month bucket |
| Charts.StackedBars | xonotic_by_the_numbers.py:83-133 | the stacked procedure draws exactly `Chart(rows, style)` when the data is renderable: non-empty, every pair with one row, every layer coloured. It fails otherwise |
| Charts.DrawnRenderable | xonotic_by_the_numbers.py:126 | once every layer is drawn, the chart is renderable exactly when there is a month bucket |
| Charts.LayersCompleteAt | xonotic_by_the_numbers.py:105-106 | every layer drawn so far found one row per month |
| Charts.EveryPairLookedUp | xonotic_by_the_numbers.py:88-106 | if every layer found one row per month, the result is complete |
| Charts.GroundBases | xonotic_by_the_numbers.py:83 | `[0] * len(months)` are the bases of the first layer |
| Charts.DrawLayers | xonotic_by_the_numbers.py:83-114 | after the layer loop, `bottoms` holds the month totals and the log holds every layer; a failure means the chart is not renderable |
| Charts.StackLayers | xonotic_by_the_numbers.py:88-114 | the layer loop keeps `bottoms` equal to the bases of the next layer and the log equal to the layers drawn so far |
| Charts.DrawLayer | xonotic_by_the_numbers.py:88-114 | one layer: its bar on the current bases, its labels, and `bottoms` raised to the next bases; a failure (no colour, shape mismatch, failed lookup) means the chart is not renderable |
| Charts.LabelLayer | xonotic_by_the_numbers.py:105-114 | the month loop raises every bucket by the layer's value and appends the layer's labels; it fails exactly at a month whose lookup fails |
| Charts.LabelMonth | xonotic_by_the_numbers.py:106-114 | one month: lookup, a label when above the threshold, `bottoms[j]` raised by the value, other buckets unchanged |
| Charts.LabelStep | xonotic_by_the_numbers.py:110-114 | the label drawn and the new base agree with the layer's specification |
| Charts.LabelTotals | xonotic_by_the_numbers.py:129-133 | the closing steps append the y limit and then one total label per month |
| ChartFacts.BarSegmentsAt | xonotic_by_the_numbers.py:95-102 | segment k is height k on base k at slot k |
| ChartFacts.TopLabelsAt | xonotic_by_the_numbers.py:132-133 | total label k shows total k (scaled), `topOffset` above it |
| ChartFacts.TotalIsColumnSum | xonotic_by_the_numbers.py:88-114 | after all layers, the running total of month k is the sum of month k's column over all rows |
| ChartFacts.TotalLabelShowsColumnSum | xonotic_by_the_numbers.py:129-133 | the y limit clears each month's column sum by the headroom, and total label k shows month k's column sum |
| ChartFacts.ClosingAt | xonotic_by_the_numbers.py:129-133 | the same, over any totals: the limit clears total k by the headroom, and label k shows total k |
| ChartFacts.TopLabelsBelowLimit | xonotic_by_the_numbers.py:129-133 | in the three stacked reports every total label lies below the y limit |
| ChartFacts.SegmentIsCell | xonotic_by_the_numbers.py:95-114 | with month-ordered rows, segment k of layer i is the (category, month) value on the stacked values of the earlier layers (a prefix sum), and its top is the next layer's base |
| ChartFacts.LayerLabelsContent | xonotic_by_the_numbers.py:105-111 | a layer's labels are exactly its buckets' labels, each at its own slot |
| ChartFacts.LabelExactlyAboveThreshold | xonotic_by_the_numbers.py:110-111 | bucket k of a layer is labelled exactly when its scaled value is above the threshold; the only label there is halfway up the segment, showing the scaled value |
| ChartFacts.LabelThresholds | xonotic_by_the_numbers.py:326 | games label above 2000 (line 110), frags above 25000 (line 422), damage from 10001000 on (`height/1000 > 10000` with floor division) |
| ChartFacts.DuplicateRowBreaksChart | xonotic_by_the_numbers.py:106 | a repeated (category, month) pair makes any stacked chart fail |
| Players.MonthColumn | xonotic_by_the_numbers.py:164 | one month label per row |
| Players.CountColumn | xonotic_by_the_numbers.py:178 | one count per row |
| Players.ColumnsAt | xonotic_by_the_numbers.py:164-178 | entry k of each column is row k's month and count |
| Players.Buckets | xonotic_by_the_numbers.py:164 | `df["month"].unique()` holds each month label once, no more labels than rows, and nothing else |
| Players.CountsIn | xonotic_by_the_numbers.py:201 | `df[df.month == month]['count']` selects at most one count per row, each the count of a row with that month |
| Players.CountsInCount | xonotic_by_the_numbers.py:201 | the selection holds as many counts as there are rows labelled with that month: none is dropped |
| Players.CountOf | xonotic_by_the_numbers.py:201 | `int(df[df.month == month]['count'])` succeeds exactly when exactly one row has that month: it fails both for a month no row has and for one two rows share |
| Players.DistinctMonthCount | xonotic_by_the_numbers.py:201 | without repeated month labels, a month's lookup yields its row's count |
| Players.MonthAbsent | xonotic_by_the_numbers.py:201 | a month no row has matches nothing |
| Players.CountLabels | xonotic_by_the_numbers.py:200-202 | one label per count |
| Players.PlayersChart | xonotic_by_the_numbers.py:177-202 | a renderable players chart is one bar per row, the y limit and one label per row |
| Players.PlayersPerMonth | xonotic_by_the_numbers.py:164-202 | draws exactly `PlayersChart(rows)` when there is data and no month label repeats, and fails otherwise: the model fails a repeated label at the `bar` call, where matplotlib fails or, with a single distinct label, the lookup at line 201 does |
| Players.BucketsOfDistinctMonths | xonotic_by_the_numbers.py:164-178 | there are as many buckets as rows exactly when no month label repeats, and then the buckets are the month column |
| Players.LimitAndLabel | xonotic_by_the_numbers.py:197-202 | appends the y limit (largest count plus 500) and then the count labels |
| Players.LabelCounts | xonotic_by_the_numbers.py:200-202 | the label loop appends one label per bucket, its count found by month lookup |
| Players.CountLabelsAt | xonotic_by_the_numbers.py:202 | label k shows count k, 100 above it |
| Players.PlayersChartAt | xonotic_by_the_numbers.py:177-202 | bar k stands on the ground with count k, the y limit clears every count by 500, and label k shows count k above its bar and below the limit |
| Players.DuplicateMonthBreaksChart | xonotic_by_the_numbers.py:177-182 | a repeated month label makes the players chart fail |
| Reports.QueryRangeAsWritten | xonotic_by_the_numbers.py:270 | as written, games and players (lines 52, 148) start at the report year and both weapon queries (lines 270, 365) at 2016 |
| Reports.WeaponQueryMissesReportYear | xonotic_by_the_numbers.py:270-275 | for a year other than 2016 the weapon queries as written miss the report year's mid-year |
| Reports.QueryRange | xonotic_by_the_numbers.py:52-56 | every report's intended bounds name the report year and the next |
| Reports.QueryRangeSelectsReportYear | xonotic_by_the_numbers.py:52 | with the intended half-open filter a report keeps exactly its year's timestamps |
| Reports.QueryRangeLabelsBucketsApart | xonotic_by_the_numbers.py:49 | two timestamps the intended filter keeps share a `to_char(create_dt, 'Mon')` label exactly when they share a month bucket |
| Reports.GameTypeLayers | xonotic_by_the_numbers.py:53 | rows of the six game types the query keeps give at most six layers |
| Reports.GamesLayerColorsDistinct | xonotic_by_the_numbers.py:80-90 | with the query's game types (line 53) every layer has a colour, and each its own |
| Reports.GamesRenderable | xonotic_by_the_numbers.py:88-100 | the games chart is drawn exactly when there is data, every pair has one row and there are at most ten game types |
| Reports.WeaponRenderable | xonotic_by_the_numbers.py:304-306 | a weapon chart is drawn exactly when there is data, every pair has one row, and every weapon is in the colour table |
| Reports.GamesPerMonth | xonotic_by_the_numbers.py:83-133 | games: draws `Chart(rows, GamesStyle)` exactly when there is data, every pair has one row and there are at most ten game types; for rows of the queried game types, exactly when there is data and every pair has one row |
| Reports.WeaponDamagePerMonth | xonotic_by_the_numbers.py:299-349 | damage: draws `Chart(rows, DamageStyle)` exactly when there is data, every pair has one row and every weapon has a colour |
| Reports.WeaponFragsPerMonth | xonotic_by_the_numbers.py:395-445 | frags: the same with `FragsStyle` |
| Reports.ExampleFrame | xonotic_by_the_numbers.py:88-106 | 2500 ctf and 100 dm games in January form one month and two layers, and can be drawn |
| Reports.ExampleTotals | xonotic_by_the_numbers.py:114 | their January total is 2600 |
| Reports.ExampleLabels | xonotic_by_the_numbers.py:110-111 | the ctf segment is labelled at 1250 showing 2500; the dm segment is not labelled |

## Left out

- SQL execution and the database connection: query results are inputs.
  - The model does not evaluate the queries' `group by`/`order by`.
  - The order of each category's rows is a hypothesis (`Frames.Aligned`), used where segments are tied to month values.
- Rendering, and what matplotlib does beyond recording the command log:
  - x positions, bar widths and x offsets (floats);
  - `xlim` (except that it fails on empty data), `xticks`, legend, grid, labels, title, `savefig`.
- `plt.xticks(tick_pos, df['month'])` passes more tick labels than positions when there are several categories; matplotlib's handling of that is not modelled.
- Label text: `str(...)` of a value is represented by the integer itself.
- The heatmap report (`hours_played`): floating-point normalisation over a pivot table.
- Command-line parsing, environment credentials and the current-year default in `main`.
- `segment_heights`: written but never read.
- Charts.Axes.Bar: matplotlib broadcasts a length-1 height or position list. The model treats every length mismatch as a failure of the `bar` call. Whether a chart is drawn or fails is the same either way: with a length-1 side, the `int()` lookup at line 106 (201 for players) fails afterwards. The segments matplotlib draws before that failure are not modelled.
- Charts.StackedBars: the segment heights it draws are the category's values in row order, tied to the looked-up month values only under `Frames.Aligned` (ChartFacts.SegmentIsCell).

## Findings

| source | as written | input that shows it | evidently intended | confidence | as-written member | corrected member |
|---|---|---|---|---|---|---|
| xonotic_by_the_numbers.py:270-275 | the weapon queries (also lines 365-371) are bounded by the literals `'2016-01-01'` and `'2017-01-01'`. `.format(year, year+1)` has no placeholder to fill | year 2017: the weapon charts titled 2017 draw 2016's data | `'{}-01-01'` bounds filled with year and year+1, as in the games query | high (not executed) | QueryRanges.WeaponRangeAsWritten, QueryRanges.WeaponRangeIgnoresYear, Reports.WeaponQueryMissesReportYear | QueryRanges.WeaponRange, Reports.QueryRange |
| xonotic_by_the_numbers.py:52 | `create_dt between '<year>-01-01' and '<year+1>-01-01'` includes both ends. A timestamp at midnight of the next New Year forms its own month group, also labelled "Jan" | a game at `<year+1>-01-01 00:00:00` of a type that also has January games: two rows for (type, "Jan"), and the chart fails (at `bar`, line 95, or at the lookup, line 106, when one side has length 1) | the half-open range `>= '<year>-01-01' and < '<year+1>-01-01'` | medium (not executed) | QueryRanges.BetweenAdmitsNextNewYear, ChartFacts.DuplicateRowBreaksChart | QueryRanges.WithinYearRangeIsCalendarYear, Reports.QueryRangeLabelsBucketsApart |

=== FILE: chart_facts.dfy ===
/** What a drawn stacked chart shows: every segment rests on the layers
    below it, the month totals are the month's column sums, a segment is
    labelled exactly when its value passes the report's threshold, and every
    total label lies below the y limit. */
module ChartFacts {
  import opened Wrappers
  import opened Sequences
  import opened Styles
  import opened Frames
  import opened Charts

  /** Segment k of a bar is the k-th height on the k-th base. */
  lemma {:induction false} BarSegmentsAt(legend: Option<string>, color: string, bases: seq<int>, heights: seq<int>, k: nat)
    requires |bases| == |heights| && k < |heights|
    ensures BarSegments(legend, color, bases, heights)[k] == Segment(legend, color, k, bases[k], heights[k])
  {
    var n := |heights| - 1;
    if k < n {
      BarSegmentsAt(legend, color, bases[..n], heights[..n], k);
    }
  }

  /** Total label k shows total k, `topOffset` above it. */
  lemma {:induction false} TopLabelsAt(style: StackStyle, totals: seq<int>, k: nat)
    requires k < |totals|
    ensures TopLabels(style, totals)[k] == Text(Top, k, totals[k] + style.topOffset, Scaled(style.scale, totals[k]))
  {
    var n := |totals| - 1;
    if k < n {
      TopLabelsAt(style, totals[..n], k);
    }
  }

  /** Once every layer is stacked, the running total of a month is the sum
      of that month's column over all rows. */
  lemma TotalIsColumnSum(rows: seq<Row>, k: nat)
    requires Complete(rows) && k < |Months(rows)|
    ensures Totals(rows)[k] == ColumnSum(rows, Months(rows)[k])
  {
    var cs := Categories(rows);
    BasesAt(rows, |cs|, k);
    assert cs[..|cs|] == cs;
    StackTopIsColumnSum(rows, Months(rows)[k]);
  }

  /** The closing steps of a drawn chart: the y limit clears every month's
      column sum by the headroom, and the total label of month k shows that
      month's column sum (scaled), `topOffset` above it. */
  lemma TotalLabelShowsColumnSum(rows: seq<Row>, style: StackStyle, k: nat)
    requires Complete(rows) && k < |Months(rows)|
    ensures var s := ColumnSum(rows, Months(rows)[k]);
      var closing := Closing(style, Totals(rows));
      |closing| == |Months(rows)| + 1 &&
      closing[0].YLimit? && s + style.headroom <= closing[0].top &&
      closing[k + 1] == Text(Top, k, s + style.topOffset, Scaled(style.scale, s))
  {
    var totals := Totals(rows);
    TotalIsColumnSum(rows, k);
    assert totals[k] == ColumnSum(rows, Months(rows)[k]);
    ClosingAt(style, totals, k);
  }

  /** The closing steps over any month totals: the y limit clears total k
      by the headroom, and total label k shows total k. */
  lemma ClosingAt(style: StackStyle, totals: seq<int>, k: nat)
    requires k < |totals|
    ensures var closing := Closing(style, totals);
      |closing| == |totals| + 1 &&
      closing[0].YLimit? && totals[k] + style.headroom <= closing[0].top &&
      closing[k + 1] == Text(Top, k, totals[k] + style.topOffset, Scaled(style.scale, totals[k]))
  {
    TopLabelsAt(style, totals, k);
  }

  /** In the three stacked reports every total label sits below the y limit:
      each report's label offset is smaller than its headroom. */
  lemma TopLabelsBelowLimit(style: StackStyle, totals: seq<int>, k: nat)
    requires style == GamesStyle || style == DamageStyle || style == FragsStyle
    requires k < |totals|
    ensures var closing := Closing(style, totals);
      closing[0].YLimit? && closing[k + 1].Text? && closing[k + 1].y < closing[0].top
  {
    TopLabelsAt(style, totals, k);
  }

  /** With each category's rows in month order, the segment of layer i in
      month bucket k is the (category, month) value, resting on the stacked
      values of the earlier layers; its top is the next layer's base. */
  lemma SegmentIsCell(rows: seq<Row>, style: StackStyle, i: nat, k: nat)
    requires Renderable(rows, style) && Aligned(rows)
    requires i < |Categories(rows)| && k < |Months(rows)|
    ensures LayersDrawable(rows, style, i + 1)
    ensures var c := Categories(rows)[i];
      var m := Months(rows)[k];
      k < |LayerBars(rows, style, i)| &&
      LayerBars(rows, style, i)[k] ==
        Segment(Some(c), LayerColor(style.coloring, i, c).value, k, StackedSum(rows, Categories(rows)[..i], m), Cell(rows, c, m)) &&
      StackedSum(rows, Categories(rows)[..i], m) + Cell(rows, c, m) == StackedSum(rows, Categories(rows)[..i + 1], m)
  {
    RenderableLayersDrawable(rows, style);
    var c := Categories(rows)[i];
    var m := Months(rows)[k];
    CompleteMeansOneRowPerMonth(rows, c);
    AlignedRowIsCell(rows, c, k);
    BasesAt(rows, i, k);
    BarSegmentsAt(Some(c), LayerColor(style.coloring, i, c).value, Bases(rows, i), Values(CategoryRows(rows, c)), k);
    LayerBaseStep(rows, i, m);
  }

  /** The inline labels of the first j buckets of layer i are exactly the
      labels of those buckets, each bucket's at its own slot. */
  lemma {:induction false} LayerLabelsContent(rows: seq<Row>, style: StackStyle, i: nat, j: nat, x: Command)
    requires i < |Categories(rows)| && j <= |Months(rows)|
    ensures x in LayerLabels(rows, style, i, j) <==> x.Text? && x.slot < j && x in InlineLabel(rows, style, i, x.slot)
  {
    if j > 0 {
      var earlier := LayerLabels(rows, style, i, j - 1);
      var last := InlineLabel(rows, style, i, j - 1);
      LayerLabelsContent(rows, style, i, j - 1, x);
      assert x in earlier + last <==> x in earlier || x in last;
      if x.Text? && x.slot == j - 1 {
        assert x !in earlier;
      } else {
        assert x !in last;
      }
    }
  }

  /** A layer labels its segment in bucket k exactly when the segment's
      (scaled) value is above the report's threshold; the label sits halfway
      up the segment and shows the scaled value. */
  lemma LabelExactlyAboveThreshold(rows: seq<Row>, style: StackStyle, i: nat, k: nat)
    requires i < |Categories(rows)| && k < |Months(rows)|
    ensures var m := Months(rows)[k];
      var v := Cell(rows, Categories(rows)[i], m);
      var labels := LayerLabels(rows, style, i, |Months(rows)|);
      (Text(Inline, k, LayerBase(rows, i, m) + v / 2, Scaled(style.scale, v)) in labels <==> Scaled(style.scale, v) > style.threshold) &&
      forall x :: x in labels && x.Text? && x.slot == k ==> x == Text(Inline, k, LayerBase(rows, i, m) + v / 2, Scaled(style.scale, v))
  {
    var m := Months(rows)[k];
    var v := Cell(rows, Categories(rows)[i], m);
    var labels := LayerLabels(rows, style, i, |Months(rows)|);
    LayerLabelsContent(rows, style, i, |Months(rows)|, Text(Inline, k, LayerBase(rows, i, m) + v / 2, Scaled(style.scale, v)));
    forall x | x in labels && x.Text? && x.slot == k
      ensures x == Text(Inline, k, LayerBase(rows, i, m) + v / 2, Scaled(style.scale, v))
    {
      LayerLabelsContent(rows, style, i, |Months(rows)|, x);
    }
  }

  /** The thresholds of the three reports: games above 2000, frags above
      25000, and damage when its value in thousands, floored, is above
      10000, which is from 10001000 on. */
  lemma LabelThresholds(v: int)
    ensures Scaled(GamesStyle.scale, v) > GamesStyle.threshold <==> v > 2000
    ensures Scaled(FragsStyle.scale, v) > FragsStyle.threshold <==> v > 25000
    ensures Scaled(DamageStyle.scale, v) > DamageStyle.threshold <==> v >= 10001000
  {
  }

  /** Two rows for one (category, month) pair make any stacked chart fail. */
  lemma DuplicateRowBreaksChart(rows: seq<Row>, style: StackStyle, p: nat, q: nat)
    requires p < q < |rows|
    requires rows[p].category == rows[q].category && rows[p].month == rows[q].month
    ensures !Renderable(rows, style)
  {
    DuplicatePairBreaksComplete(rows, p, q);
  }
}

=== FILE: charts.dfy ===
/** The stacked-bar procedure shared by the games, weapon-damage and
    weapon-frags reports, and the single-layer players report. Drawing is
    modelled as an append-only log of abstract commands on an `Axes`. */
module Charts {
  import opened Wrappers
  import opened Sequences
  import opened Styles
  import opened Frames

  datatype TextKind = Inline | Top

  /** What a report asks the plotting library to draw, with the integer
      coordinates only (x offsets, widths and fonts are left out). */
  datatype Command =
    | Segment(legend: Option<string>, color: string, slot: nat, base: int, height: int)
    | Text(kind: TextKind, slot: nat, y: int, value: int)
    | YLimit(top: int)

  /** The segments one `bar` call draws: slot k rests on `bases[k]` and is
      `heights[k]` tall. */
  function BarSegments(legend: Option<string>, color: string, bases: seq<int>, heights: seq<int>): (r: seq<Command>)
    requires |bases| == |heights|
    ensures |r| == |heights|
  {
    if |heights| == 0 then []
    else
      var n := |heights| - 1;
      BarSegments(legend, color, bases[..n], heights[..n]) + [Segment(legend, color, n, bases[n], heights[n])]
  }

  /** The plot's axes: everything drawn on them, in drawing order. */
  class Axes {
    var log: seq<Command>

    constructor ()
      ensures log == []
    {
      log := [];
    }

    /** `ax1.bar(x=tick_pos, height=heights, bottom=bases, ...)`: one segment
        per x position; heights whose count differs from the positions' are
        rejected (a shape mismatch) and nothing is drawn. matplotlib would
        broadcast a side of length 1; every chart that passes one fails its
        lookups afterwards, so the outcome is the same. */
    method Bar(legend: Option<string>, color: string, bases: seq<int>, heights: seq<int>) returns (ok: bool)
      modifies this
      ensures ok <==> |bases| == |heights|
      ensures ok ==> log == old(log) + BarSegments(legend, color, bases, heights)
      ensures !ok ==> log == old(log)
    {
      ok := |bases| == |heights|;
      if ok {
        log := log + BarSegments(legend, color, bases, heights);
      }
    }

    /** `ax1.text(x, y, str(value), ...)`. */
    method PutText(kind: TextKind, slot: nat, y: int, value: int)
      modifies this
      ensures log == old(log) + [Text(kind, slot, y, value)]
    {
      log := log + [Text(kind, slot, y, value)];
    }

    /** `plt.ylim([0, top])`. */
    method SetYLimit(top: int)
      modifies this
      ensures log == old(log) + [YLimit(top)]
    {
      log := log + [YLimit(top)];
    }
  }

  /** How label values are shown: as they are, or in thousands under
      Python 2's integer division (`height/1000`, floored). */
  datatype Scale = Units | Thousands

  function Scaled(scale: Scale, v: int): (r: int)
    ensures scale.Units? ==> r == v
    ensures scale.Thousands? ==> 1000 * r <= v < 1000 * r + 1000
  {
    match scale
    case Units => v
    case Thousands => v / 1000
  }

  /** Where a layer's colour comes from: a palette string sliced by layer
      position, or a colour table keyed by category. */
  datatype Coloring = ByPalette(palette: string) | ByTable(table: map<string, string>)

  /** The constants that set the three stacked reports apart. */
  datatype StackStyle = StackStyle(threshold: int, scale: Scale, headroom: int, topOffset: int, coloring: Coloring)

  const GamesStyle := StackStyle(2000, Units, 3500, 300, ByPalette(Palette))
  const DamageStyle := StackStyle(10000, Thousands, 5500000, 500000, ByTable(WeaponColors))
  const FragsStyle := StackStyle(25000, Units, 50000, 3500, ByTable(WeaponColors))

  /** The colour of the i-th layer, category `c`: `'#' + p[i*6:i*6+6]`, or
      `table[c]`. None is matplotlib's rejection of a palette slice that is
      not six hex digits (past the palette's end the colour is a bare `#`),
      or the KeyError of a category the table lacks. */
  function LayerColor(coloring: Coloring, i: nat, c: string): (r: Option<string>)
    ensures coloring.ByPalette? ==> (r.Some? <==> 6 * i + 6 <= |coloring.palette|)
    ensures coloring.ByPalette? && r.Some? ==> r.value == "#" + coloring.palette[6 * i..6 * i + 6]
    ensures coloring.ByTable? ==> (r.Some? <==> c in coloring.table)
    ensures coloring.ByTable? && r.Some? ==> r.value == coloring.table[c]
  {
    match coloring
    case ByPalette(p) =>
      var chunk := Slice(p, i * 6, i * 6 + 6);
      if |chunk| == 6 then Some("#" + chunk) else None
    case ByTable(t) => if c in t then Some(t[c]) else None
  }

  /** The games report colours layer i with the i-th game colour while the
      palette lasts, and has no colour for an eleventh layer or later. */
  lemma GamesLayerColor(i: nat, c: string)
    ensures i < 10 ==> LayerColor(GamesStyle.coloring, i, c) == Some(GameColor(i))
    ensures i >= 10 ==> LayerColor(GamesStyle.coloring, i, c) == None
  {
    PaletteChunkShape(i);
  }

  /** The weapon reports colour a layer by its weapon's table entry. */
  lemma WeaponLayerColor(i: nat, c: string)
    ensures LayerColor(DamageStyle.coloring, i, c) == WeaponColor(c)
    ensures LayerColor(FragsStyle.coloring, i, c) == WeaponColor(c)
  {
  }

  datatype ChartError =
    | EmptyChart
    | NoColor(category: string)
    | ShapeMismatch(legend: Option<string>)
    | LookupFailed(cause: LookupError)

  datatype Status = Drawn | Failed(error: ChartError)

  /** The first n layers can be drawn: each has a colour and one row per month. */
  predicate LayersDrawable(rows: seq<Row>, style: StackStyle, n: nat) {
    n <= |Categories(rows)| &&
    forall i :: 0 <= i < n ==>
      LayerColor(style.coloring, i, Categories(rows)[i]).Some? &&
      |CategoryRows(rows, Categories(rows)[i])| == |Months(rows)|
  }

  /** The whole chart can be drawn: there is data, every pair has exactly
      one row, every layer has a colour. */
  predicate Renderable(rows: seq<Row>, style: StackStyle) {
    |rows| > 0 && Complete(rows) &&
    forall i :: 0 <= i < |Categories(rows)| ==> LayerColor(style.coloring, i, Categories(rows)[i]).Some?
  }

  lemma RenderableLayersDrawable(rows: seq<Row>, style: StackStyle)
    requires Renderable(rows, style)
    ensures LayersDrawable(rows, style, |Categories(rows)|)
  {
    var cs := Categories(rows);
    forall i | 0 <= i < |cs|
      ensures |CategoryRows(rows, cs[i])| == |Months(rows)|
    {
      CompleteMeansOneRowPerMonth(rows, cs[i]);
    }
  }

  /** Where layer i rests in month m: the sum of the values of the layers below it. */
  function LayerBase(rows: seq<Row>, i: nat, m: string): int
    requires i <= |Categories(rows)|
  {
    StackedSum(rows, Categories(rows)[..i], m)
  }

  lemma LayerBaseStep(rows: seq<Row>, i: nat, m: string)
    requires i < |Categories(rows)|
    ensures LayerBase(rows, i + 1, m) == LayerBase(rows, i, m) + Cell(rows, Categories(rows)[i], m)
  {
    var cs := Categories(rows);
    assert cs[..i + 1][..i] == cs[..i];
  }

  /** The bases of layer i over the month buckets `ms`, one per bucket. */
  function BasesOver(rows: seq<Row>, i: nat, ms: seq<string>): (r: seq<int>)
    requires i <= |Categories(rows)|
    ensures |r| == |ms|
  {
    if |ms| == 0 then [] else BasesOver(rows, i, ms[..|ms| - 1]) + [LayerBase(rows, i, ms[|ms| - 1])]
  }

  lemma {:induction false} BasesOverAt(rows: seq<Row>, i: nat, ms: seq<string>, k: nat)
    requires i <= |Categories(rows)| && k < |ms|
    ensures BasesOver(rows, i, ms)[k] == LayerBase(rows, i, ms[k])
  {
    var n := |ms| - 1;
    if k < n {
      BasesOverAt(rows, i, ms[..n], k);
    }
  }

  /** The bases of layer i, one per month bucket. */
  function Bases(rows: seq<Row>, i: nat): (r: seq<int>)
    requires i <= |Categories(rows)|
    ensures |r| == |Months(rows)|
  {
    BasesOver(rows, i, Months(rows))
  }

  /** Bucket k of layer i rests on the values of the layers below it. */
  lemma BasesAt(rows: seq<Row>, i: nat, k: nat)
    requires i <= |Categories(rows)| && k < |Months(rows)|
    ensures Bases(rows, i)[k] == LayerBase(rows, i, Months(rows)[k])
  {
    BasesOverAt(rows, i, Months(rows), k);
  }

  /** The month totals: where the whole stack ends. */
  function Totals(rows: seq<Row>): (r: seq<int>)
    ensures |r| == |Months(rows)|
  {
    Bases(rows, |Categories(rows)|)
  }

  /** The bar of layer i: its category's rows, in query order, on the bases of layer i. */
  function LayerBars(rows: seq<Row>, style: StackStyle, i: nat): seq<Command>
    requires LayersDrawable(rows, style, i + 1)
  {
    var c := Categories(rows)[i];
    BarSegments(Some(c), LayerColor(style.coloring, i, c).value, Bases(rows, i), Values(CategoryRows(rows, c)))
  }

  /** The inline label of layer i in month bucket k, if its value passes
      the threshold: at most one text, in that bucket's slot. */
  function InlineLabel(rows: seq<Row>, style: StackStyle, i: nat, k: nat): (r: seq<Command>)
    requires i < |Categories(rows)| && k < |Months(rows)|
    ensures |r| <= 1
    ensures |r| == 1 <==> Scaled(style.scale, Cell(rows, Categories(rows)[i], Months(rows)[k])) > style.threshold
    ensures forall x :: x in r ==> x.Text? && x.kind == Inline && x.slot == k
  {
    var m := Months(rows)[k];
    var v := Cell(rows, Categories(rows)[i], m);
    if Scaled(style.scale, v) > style.threshold
    then [Text(Inline, k, LayerBase(rows, i, m) + v / 2, Scaled(style.scale, v))]
    else []
  }

  /** The inline labels of layer i in the first j month buckets. */
  function LayerLabels(rows: seq<Row>, style: StackStyle, i: nat, j: nat): seq<Command>
    requires i < |Categories(rows)| && j <= |Months(rows)|
  {
    if j == 0 then [] else LayerLabels(rows, style, i, j - 1) + InlineLabel(rows, style, i, j - 1)
  }

  /** Layer i: its bar, then its inline labels. */
  function Layer(rows: seq<Row>, style: StackStyle, i: nat): (r: seq<Command>)
    requires LayersDrawable(rows, style, i + 1)
    ensures |r| >= |Months(rows)|
  {
    LayerBars(rows, style, i) + LayerLabels(rows, style, i, |Months(rows)|)
  }

  /** The first n layers, bottom first. */
  function Layers(rows: seq<Row>, style: StackStyle, n: nat): (r: seq<Command>)
    requires LayersDrawable(rows, style, n)
    ensures |r| >= n * |Months(rows)|
  {
    if n == 0 then []
    else
      MulStep(n, |Months(rows)|);
      Layers(rows, style, n - 1) + Layer(rows, style, n - 1)
  }

  /** The total label of month bucket k, `offset` above its stack, showing
      the total in the report's unit. */
  function TopLabel(style: StackStyle, k: nat, total: int): (r: Command)
    ensures r.Text? && r.kind == Top && r.slot == k
    ensures r.y - total == style.topOffset
    ensures r.value == Scaled(style.scale, total)
    ensures style.scale.Thousands? ==> 1000 * r.value <= total < 1000 * r.value + 1000
  {
    Text(Top, k, total + style.topOffset, Scaled(style.scale, total))
  }

  /** One total label per month bucket, left to right. */
  function TopLabels(style: StackStyle, totals: seq<int>): (r: seq<Command>)
    ensures |r| == |totals|
  {
    if |totals| == 0 then []
    else TopLabels(style, totals[..|totals| - 1]) + [TopLabel(style, |totals| - 1, totals[|totals| - 1])]
  }

  /** The closing steps: the y limit above the tallest stack, clearing
      every total by the headroom and reached by one of them, then the totals. */
  function Closing(style: StackStyle, totals: seq<int>): (r: seq<Command>)
    requires |totals| > 0
    ensures |r| == |totals| + 1 && r[0].YLimit?
    ensures forall k :: 0 <= k < |totals| ==> totals[k] + style.headroom <= r[0].top
    ensures exists k :: 0 <= k < |totals| && totals[k] + style.headroom == r[0].top
  {
    [YLimit(MaxOf(totals) + style.headroom)] + TopLabels(style, totals)
  }

  /** Everything a renderable chart draws: the layers, a segment per
      (category, month) pair among them, then the y limit and one total per
      month. */
  function Chart(rows: seq<Row>, style: StackStyle): (r: seq<Command>)
    requires Renderable(rows, style)
    ensures |r| >= |Categories(rows)| * |Months(rows)| + |Months(rows)| + 1
  {
    RenderableLayersDrawable(rows, style);
    Layers(rows, style, |Categories(rows)|) + Closing(style, Totals(rows))
  }

  /** Proof helper: one more factor n adds one more m. */
  lemma MulStep(n: nat, m: nat)
    requires n > 0
    ensures (n - 1) * m + m == n * m
  {
  }

  /** A layer opens with its bar: one segment per month bucket, in slot order. */
  lemma LayerOpensWithSegments(rows: seq<Row>, style: StackStyle, i: nat)
    requires LayersDrawable(rows, style, i + 1)
    ensures forall k :: 0 <= k < |Months(rows)| ==> Layer(rows, style, i)[k].Segment? && Layer(rows, style, i)[k].slot == k
  {
    var c := Categories(rows)[i];
    var bars := LayerBars(rows, style, i);
    forall k | 0 <= k < |Months(rows)|
      ensures Layer(rows, style, i)[k].Segment? && Layer(rows, style, i)[k].slot == k
    {
      BarSegmentSlot(Some(c), LayerColor(style.coloring, i, c).value, Bases(rows, i), Values(CategoryRows(rows, c)), k);
      assert Layer(rows, style, i)[k] == bars[k];
    }
  }

  /** Segment k of a bar sits in slot k. */
  lemma {:induction false} BarSegmentSlot(legend: Option<string>, color: string, bases: seq<int>, heights: seq<int>, k: nat)
    requires |bases| == |heights| && k < |heights|
    ensures BarSegments(legend, color, bases, heights)[k].Segment? && BarSegments(legend, color, bases, heights)[k].slot == k
  {
    var n := |heights| - 1;
    if k < n {
      BarSegmentSlot(legend, color, bases[..n], heights[..n], k);
    }
  }

  /** The stacked-bar procedure: layers in first-appearance order, a running
      total per month (`bottoms`), a label for every segment above the
      threshold, then the y limit above the tallest stack and one total
      label per month. It draws all of that when the data is renderable and
      fails otherwise. */
  method StackedBars(ax: Axes, rows: seq<Row>, style: StackStyle) returns (status: Status)
    modifies ax
    ensures status.Drawn? <==> Renderable(rows, style)
    ensures status.Drawn? ==> ax.log == old(ax.log) + Chart(rows, style)
  {
    var bottoms;
    status, bottoms := DrawLayers(ax, rows, style);
    if status.Failed? {
      return;
    }
    DrawnRenderable(rows, style);
    if bottoms.Length == 0 {
      return Failed(EmptyChart);
    }
    LabelTotals(ax, bottoms, style, Totals(rows));
    AppendAssoc(old(ax.log), Layers(rows, style, |Categories(rows)|), Closing(style, Totals(rows)));
  }

  /** Once every layer is drawn, the chart is renderable exactly when there is a month. */
  lemma DrawnRenderable(rows: seq<Row>, style: StackStyle)
    requires LayersDrawable(rows, style, |Categories(rows)|) && Complete(rows)
    ensures Renderable(rows, style) <==> |Months(rows)| > 0
  {
  }

  /** Layer i found exactly one row in every month bucket. */
  predicate LayerComplete(rows: seq<Row>, i: nat)
    requires i < |Categories(rows)|
  {
    forall k :: 0 <= k < |Months(rows)| ==> |Matches(rows, Categories(rows)[i], Months(rows)[k])| == 1
  }

  /** The first n layers each found exactly one row in every month bucket. */
  predicate LayersComplete(rows: seq<Row>, n: nat)
    requires n <= |Categories(rows)|
  {
    n == 0 || (LayersComplete(rows, n - 1) && LayerComplete(rows, n - 1))
  }

  lemma {:induction false} LayersCompleteAt(rows: seq<Row>, n: nat, i: nat)
    requires i < n <= |Categories(rows)| && LayersComplete(rows, n)
    ensures LayerComplete(rows, i)
  {
    if i < n - 1 {
      LayersCompleteAt(rows, n - 1, i);
    }
  }

  /** A chart whose every layer found exactly one row per month is complete. */
  lemma EveryPairLookedUp(rows: seq<Row>)
    requires LayersComplete(rows, |Categories(rows)|)
    ensures Complete(rows)
  {
    forall c, m | c in Categories(rows) && m in Months(rows)
      ensures |Matches(rows, c, m)| == 1
    {
      var i :| 0 <= i < |Categories(rows)| && Categories(rows)[i] == c;
      var k :| 0 <= k < |Months(rows)| && Months(rows)[k] == m;
      LayersCompleteAt(rows, |Categories(rows)|, i);
    }
  }

  /** Before any layer is drawn, every bucket rests on zero. */
  lemma GroundBases(rows: seq<Row>, b: seq<int>)
    requires |b| == |Months(rows)| && forall k :: 0 <= k < |b| ==> b[k] == 0
    ensures b == Bases(rows, 0)
  {
    forall k | 0 <= k < |b|
      ensures b[k] == Bases(rows, 0)[k]
    {
      BasesAt(rows, 0, k);
    }
  }

  /** The set-up of the layer loop: one running total per month bucket,
      all zero, then the loop itself. */
  method DrawLayers(ax: Axes, rows: seq<Row>, style: StackStyle) returns (status: Status, bottoms: array<int>)
    modifies ax
    ensures fresh(bottoms) && bottoms.Length == |Months(rows)|
    ensures status.Failed? ==> !Renderable(rows, style)
    ensures status.Drawn? ==> LayersDrawable(rows, style, |Categories(rows)|) && Complete(rows)
    ensures status.Drawn? ==> bottoms[..] == Totals(rows)
    ensures status.Drawn? ==> ax.log == old(ax.log) + Layers(rows, style, |Categories(rows)|)
  {
    bottoms := new int[|Months(rows)|](_ => 0);
    GroundBases(rows, bottoms[..]);
    status := StackLayers(ax, bottoms, rows, style);
  }

  /** The layer loop: every layer drawn bottom first on the running totals. */
  method StackLayers(ax: Axes, bottoms: array<int>, rows: seq<Row>, style: StackStyle) returns (status: Status)
    requires bottoms[..] == Bases(rows, 0)
    modifies ax, bottoms
    ensures status.Failed? ==> !Renderable(rows, style)
    ensures status.Drawn? ==> LayersDrawable(rows, style, |Categories(rows)|) && Complete(rows)
    ensures status.Drawn? ==> bottoms[..] == Totals(rows)
    ensures status.Drawn? ==> ax.log == old(ax.log) + Layers(rows, style, |Categories(rows)|)
  {
    for i := 0 to |Categories(rows)|
      invariant LayersDrawable(rows, style, i)
      invariant LayersComplete(rows, i)
      invariant bottoms[..] == Bases(rows, i)
      invariant ax.log == old(ax.log) + Layers(rows, style, i)
    {
      status := DrawLayer(ax, bottoms, rows, style, i);
      if status.Failed? {
        return;
      }
      AppendAssoc(old(ax.log), Layers(rows, style, i), Layer(rows, style, i));
    }
    EveryPairLookedUp(rows);
    status := Drawn;
  }

  /** One pass of the layer loop: draw layer i's bar on the current
      `bottoms`, label its segments above the threshold, and add its values
      to `bottoms`. Fails on an unknown colour, a shape mismatch, or a
      (category, month) pair without exactly one row. */
  method DrawLayer(ax: Axes, bottoms: array<int>, rows: seq<Row>, style: StackStyle, i: nat) returns (status: Status)
    requires i < |Categories(rows)| && LayersDrawable(rows, style, i)
    requires bottoms[..] == Bases(rows, i)
    modifies ax, bottoms
    ensures status.Failed? ==> !Renderable(rows, style)
    ensures status.Drawn? ==> LayersDrawable(rows, style, i + 1) && LayerComplete(rows, i)
    ensures status.Drawn? ==> bottoms[..] == Bases(rows, i + 1)
    ensures status.Drawn? ==> ax.log == old(ax.log) + Layer(rows, style, i)
  {
    var months := Months(rows);
    var c := Categories(rows)[i];
    var color := LayerColor(style.coloring, i, c);
    if color.None? {
      return Failed(NoColor(c));
    }
    var ok := ax.Bar(Some(c), color.value, bottoms[..], Values(CategoryRows(rows, c)));
    if !ok {
      if Complete(rows) {
        CompleteMeansOneRowPerMonth(rows, c);
      }
      return Failed(ShapeMismatch(Some(c)));
    }
    assert LayersDrawable(rows, style, i + 1);
    status := LabelLayer(ax, bottoms, rows, style, i);
    if status.Failed? {
      var k :| 0 <= k < |months| && |Matches(rows, c, months[k])| != 1;
      assert c in Categories(rows) && months[k] in months;
      return;
    }
    AppendAssoc(old(ax.log), LayerBars(rows, style, i), LayerLabels(rows, style, i, |months|));
  }

  /** The inner loop of a layer: one lookup per month bucket, a label when
      the value passes the threshold, and the value added to `bottoms`. */
  method LabelLayer(ax: Axes, bottoms: array<int>, rows: seq<Row>, style: StackStyle, i: nat) returns (status: Status)
    requires i < |Categories(rows)|
    requires bottoms[..] == Bases(rows, i)
    modifies ax, bottoms
    ensures status.Failed? ==> exists k :: 0 <= k < |Months(rows)| && |Matches(rows, Categories(rows)[i], Months(rows)[k])| != 1
    ensures status.Drawn? ==> LayerComplete(rows, i)
    ensures status.Drawn? ==> bottoms[..] == Bases(rows, i + 1)
    ensures status.Drawn? ==> ax.log == old(ax.log) + LayerLabels(rows, style, i, |Months(rows)|)
  {
    var months := Months(rows);
    ghost var start := ax.log;
    LabelledFirst(rows, style, i, start, bottoms[..]);
    for j := 0 to |months|
      invariant LabelledUpTo(rows, style, i, j, start, ax.log, bottoms[..])
    {
      ghost var log := ax.log;
      ghost var before := bottoms[..];
      LabelledAt(rows, style, i, j, start, log, before);
      status := LabelMonth(ax, bottoms, rows, style, i, j);
      if status.Failed? {
        return;
      }
      LabelledNext(rows, style, i, j, start, log, before, ax.log, bottoms[..]);
    }
    LabelledAll(rows, style, i, start, ax.log, bottoms[..]);
    return Drawn;
  }

  /** The state of a layer's month loop after j buckets: those buckets found
      their row, were raised to the next layer's bases and labelled. */
  ghost predicate LabelledUpTo(rows: seq<Row>, style: StackStyle, i: nat, j: nat, start: seq<Command>, log: seq<Command>, b: seq<int>)
    requires i < |Categories(rows)| && j <= |Months(rows)|
  {
    && b == Bases(rows, i + 1)[..j] + Bases(rows, i)[j..]
    && (forall k :: 0 <= k < j ==> |Matches(rows, Categories(rows)[i], Months(rows)[k])| == 1)
    && log == start + LayerLabels(rows, style, i, j)
  }

  lemma LabelledFirst(rows: seq<Row>, style: StackStyle, i: nat, start: seq<Command>, b: seq<int>)
    requires i < |Categories(rows)| && b == Bases(rows, i)
    ensures LabelledUpTo(rows, style, i, 0, start, start, b)
  {
    assert Bases(rows, i + 1)[..0] + Bases(rows, i)[0..] == b;
  }

  lemma LabelledAt(rows: seq<Row>, style: StackStyle, i: nat, j: nat, start: seq<Command>, log: seq<Command>, b: seq<int>)
    requires i < |Categories(rows)| && j < |Months(rows)|
    requires LabelledUpTo(rows, style, i, j, start, log, b)
    ensures |b| == |Months(rows)| && b[j] == Bases(rows, i)[j]
  {
  }

  lemma LabelledNext(rows: seq<Row>, style: StackStyle, i: nat, j: nat, start: seq<Command>,
                     log: seq<Command>, b: seq<int>, log': seq<Command>, b': seq<int>)
    requires i < |Categories(rows)| && j < |Months(rows)|
    requires LabelledUpTo(rows, style, i, j, start, log, b)
    requires |Matches(rows, Categories(rows)[i], Months(rows)[j])| == 1
    requires b' == b[j := Bases(rows, i + 1)[j]]
    requires log' == log + InlineLabel(rows, style, i, j)
    ensures LabelledUpTo(rows, style, i, j + 1, start, log', b')
  {
    LayerLabelsStep(rows, style, i, j);
    AppendAssoc(start, LayerLabels(rows, style, i, j), InlineLabel(rows, style, i, j));
    Raised(Bases(rows, i), Bases(rows, i + 1), j);
  }

  lemma LabelledAll(rows: seq<Row>, style: StackStyle, i: nat, start: seq<Command>, log: seq<Command>, b: seq<int>)
    requires i < |Categories(rows)|
    requires LabelledUpTo(rows, style, i, |Months(rows)|, start, log, b)
    ensures LayerComplete(rows, i)
    ensures b == Bases(rows, i + 1)
    ensures log == start + LayerLabels(rows, style, i, |Months(rows)|)
  {
    var n := |Months(rows)|;
    assert Bases(rows, i + 1)[..n] + Bases(rows, i)[n..] == Bases(rows, i + 1);
  }

  lemma LayerLabelsStep(rows: seq<Row>, style: StackStyle, i: nat, j: nat)
    requires i < |Categories(rows)| && j < |Months(rows)|
    ensures LayerLabels(rows, style, i, j + 1) == LayerLabels(rows, style, i, j) + InlineLabel(rows, style, i, j)
  {
  }

  /** The body of the inner loop for month bucket j: look the value up,
      label it when it passes the threshold, and raise `bottoms[j]` by it. */
  method LabelMonth(ax: Axes, bottoms: array<int>, rows: seq<Row>, style: StackStyle, i: nat, j: nat) returns (status: Status)
    requires i < |Categories(rows)| && j < |Months(rows)| == bottoms.Length
    requires bottoms[j] == Bases(rows, i)[j]
    modifies ax, bottoms
    ensures status.Drawn? <==> |Matches(rows, Categories(rows)[i], Months(rows)[j])| == 1
    ensures status.Drawn? ==> bottoms[j] == Bases(rows, i + 1)[j]
    ensures bottoms[..] == old(bottoms[..])[j := bottoms[j]]
    ensures status.Drawn? ==> ax.log == old(ax.log) + InlineLabel(rows, style, i, j)
  {
    var cell := Lookup(rows, Categories(rows)[i], Months(rows)[j]);
    if cell.Err? {
      return Failed(LookupFailed(cell.error));
    }
    var height := cell.value;
    var base := bottoms[j];
    LabelStep(rows, style, i, j, base, height);
    if Scaled(style.scale, height) > style.threshold {
      ax.PutText(Inline, j, base + height / 2, Scaled(style.scale, height));
    }
    bottoms[j] := base + height;
    return Drawn;
  }

  /** Raising bucket j moves it from the old bases to the new ones. */
  lemma Raised(prev: seq<int>, next: seq<int>, j: nat)
    requires j < |prev| == |next|
    ensures (next[..j] + prev[j..])[j := next[j]] == next[..j + 1] + prev[j + 1..]
  {
  }

  /** One month bucket of a layer: its label (if any) and its new base. */
  lemma LabelStep(rows: seq<Row>, style: StackStyle, i: nat, j: nat, base: int, height: int)
    requires i < |Categories(rows)| && j < |Months(rows)|
    requires base == Bases(rows, i)[j]
    requires height == Cell(rows, Categories(rows)[i], Months(rows)[j])
    ensures base + height == Bases(rows, i + 1)[j]
    ensures InlineLabel(rows, style, i, j) ==
      (if Scaled(style.scale, height) > style.threshold
       then [Text(Inline, j, base + height / 2, Scaled(style.scale, height))] else [])
  {
    BasesAt(rows, i, j);
    BasesAt(rows, i + 1, j);
    LayerBaseStep(rows, i, Months(rows)[j]);
  }

  /** The closing steps: the y limit above the tallest stack, then one
      total label per month bucket, raised by the report's offset. */
  method LabelTotals(ax: Axes, bottoms: array<int>, style: StackStyle, ghost totals: seq<int>)
    requires bottoms.Length > 0 && bottoms[..] == totals
    modifies ax
    ensures ax.log == old(ax.log) + Closing(style, totals)
  {
    ax.SetYLimit(MaxOf(bottoms[..]) + style.headroom);
    ghost var limited := ax.log;
    for k := 0 to bottoms.Length
      invariant ax.log == limited + TopLabels(style, totals[..k])
    {
      assert totals[..k + 1][..k] == totals[..k];
      AppendAssoc(limited, TopLabels(style, totals[..k]), [TopLabel(style, k, bottoms[k])]);
      ax.PutText(Top, k, bottoms[k] + style.topOffset, Scaled(style.scale, bottoms[k]));
    }
    assert totals[..bottoms.Length] == totals;
    AppendAssoc(old(ax.log), [YLimit(MaxOf(totals) + style.headroom)], TopLabels(style, totals));
  }
}

=== FILE: decimal.dfy ===
/** Decimal rendering of integers, as Python's `str(n)` and `'{}'.format(n)`
    produce it, and the parser that reads it back. */
module Decimal {
  import opened Wrappers

  predicate IsDigit(c: char) {
    '0' <= c <= '9'
  }

  predicate AllDigits(s: string) {
    forall k :: 0 <= k < |s| ==> IsDigit(s[k])
  }

  function DigitChar(d: nat): (c: char)
    requires d < 10
    ensures IsDigit(c) && c as int - '0' as int == d
  {
    (d + '0' as int) as char
  }

  /** The digits of `n`, most significant first, with no leading zero. */
  function NatToString(n: nat): (s: string)
    ensures |s| > 0 && AllDigits(s)
    ensures n >= 10 ==> s[0] != '0'
  {
    if n < 10 then [DigitChar(n)] else NatToString(n / 10) + [DigitChar(n % 10)]
  }

  /** `str(n)` for a Python int: a minus sign for negative numbers. */
  function IntToString(n: int): (s: string)
    ensures |s| > 0
    ensures (s[0] == '-') <==> n < 0
  {
    if n < 0 then "-" + NatToString(-n) else NatToString(n)
  }

  function ParseNat(s: string): nat
    requires |s| > 0 && AllDigits(s)
  {
    var d := s[|s| - 1] as int - '0' as int;
    if |s| == 1 then d else ParseNat(s[..|s| - 1]) * 10 + d
  }

  /** Reads back a decimal integer; None for anything that is not one. */
  function ParseInt(s: string): Option<int> {
    if |s| > 0 && AllDigits(s) then Some(ParseNat(s) as int)
    else if |s| > 1 && s[0] == '-' && AllDigits(s[1..]) then Some(0 - ParseNat(s[1..]))
    else None
  }

  lemma {:induction false} NatRoundTrip(n: nat)
    ensures ParseNat(NatToString(n)) == n
  {
    if n >= 10 {
      var s := NatToString(n);
      assert s[..|s| - 1] == NatToString(n / 10);
      NatRoundTrip(n / 10);
    }
  }

  /** Rendering an integer and parsing the text gives the integer back. */
  lemma IntRoundTrip(n: int)
    ensures ParseInt(IntToString(n)) == Some(n)
  {
    if n < 0 {
      var s := IntToString(n);
      assert s[1..] == NatToString(-n);
      NatRoundTrip(-n);
    } else {
      NatRoundTrip(n);
    }
  }
}

=== FILE: frames.dfy ===
/** The query result of a stacked report, and the pandas selections the
    charts make on it: distinct months and categories, the rows of one
    category, and the single value of one (category, month) pair. */
module Frames {
  import opened Wrappers
  import opened Sequences

  /** One row of a stacked report's query: the category (game type or
      weapon), the month label (`to_char(create_dt, 'Mon')`) and the metric. */
  datatype Row = Row(category: string, month: string, value: int)

  /** The `month` column, `df["month"]`. */
  function MonthColumn(rows: seq<Row>): (r: seq<string>)
    ensures |r| == |rows|
    ensures forall k {:trigger r[k]} :: 0 <= k < |rows| ==> r[k] == rows[k].month
  {
    if |rows| == 0 then [] else [rows[0].month] + MonthColumn(rows[1..])
  }

  /** The category column, `df["game_type_cd"]` or `df["weapon_cd"]`. */
  function CategoryColumn(rows: seq<Row>): (r: seq<string>)
    ensures |r| == |rows|
    ensures forall k {:trigger r[k]} :: 0 <= k < |rows| ==> r[k] == rows[k].category
  {
    if |rows| == 0 then [] else [rows[0].category] + CategoryColumn(rows[1..])
  }

  /** `df["month"].unique()`: the x-axis buckets, each month label once. */
  function Months(rows: seq<Row>): (r: seq<string>)
    ensures NoDuplicates(r)
    ensures forall m :: m in r <==> m in MonthColumn(rows)
  {
    UniqueSameValues(MonthColumn(rows));
    Unique(MonthColumn(rows))
  }

  /** `df[<category>].unique()`: the stack layers, bottom first, each category once. */
  function Categories(rows: seq<Row>): (r: seq<string>)
    ensures NoDuplicates(r)
    ensures forall c :: c in r <==> c in CategoryColumn(rows)
  {
    UniqueSameValues(CategoryColumn(rows));
    Unique(CategoryColumn(rows))
  }

  /** `df[df.<category> == c]`: the rows of one category, in query order. */
  function CategoryRows(rows: seq<Row>, c: string): (r: seq<Row>)
    ensures |r| <= |rows|
    ensures forall k :: 0 <= k < |r| ==> r[k].category == c
  {
    if |rows| == 0 then []
    else if rows[0].category == c then [rows[0]] + CategoryRows(rows[1..], c)
    else CategoryRows(rows[1..], c)
  }

  /** Selecting a category distributes over concatenation: the rows of
      category `c` in `a + b` are those in `a`, then those in `b`. */
  lemma {:induction false} CategoryRowsAppend(a: seq<Row>, b: seq<Row>, c: string)
    ensures CategoryRows(a + b, c) == CategoryRows(a, c) + CategoryRows(b, c)
  {
    if |a| == 0 {
      assert a + b == b;
    } else {
      assert (a + b)[0] == a[0];
      assert (a + b)[1..] == a[1..] + b;
      CategoryRowsAppend(a[1..], b, c);
    }
  }

  /** Read from the back: a further row is kept, at the end, exactly when
      its category is `c`. With `CategoryRows([], c) == []` this pins the
      selection down as every row of category `c`, in query order. */
  lemma CategoryRowsSnoc(rows: seq<Row>, row: Row, c: string)
    ensures CategoryRows(rows + [row], c) == CategoryRows(rows, c) + (if row.category == c then [row] else [])
  {
    CategoryRowsAppend(rows, [row], c);
    assert [row][1..] == [];
  }

  /** No row of category `c` is dropped: the selection has as many rows as
      the category column has entries `c`. */
  lemma {:induction false} CategoryRowsCount(rows: seq<Row>, c: string)
    ensures |CategoryRows(rows, c)| == multiset(CategoryColumn(rows))[c]
  {
    if |rows| > 0 {
      CategoryRowsCount(rows[1..], c);
      assert CategoryColumn(rows) == [rows[0].category] + CategoryColumn(rows[1..]);
    }
  }

  /** Every row of a category is a row of the query. */
  lemma {:induction false} CategoryRowIsRow(rows: seq<Row>, c: string, k: nat)
    requires k < |CategoryRows(rows, c)|
    ensures CategoryRows(rows, c)[k] in rows
  {
    var rest := CategoryRows(rows[1..], c);
    if rows[0].category == c {
      if k > 0 {
        CategoryRowIsRow(rows[1..], c, k - 1);
        assert ([rows[0]] + rest)[k] == rest[k - 1];
      }
    } else {
      CategoryRowIsRow(rows[1..], c, k);
    }
  }

  /** The metric column of some rows, `segment_df['count']`. */
  function Values(rows: seq<Row>): (r: seq<int>)
    ensures |r| == |rows|
    ensures forall k {:trigger r[k]} :: 0 <= k < |rows| ==> r[k] == rows[k].value
  {
    if |rows| == 0 then [] else [rows[0].value] + Values(rows[1..])
  }

  /** `segment_df[df.month == m][<metric>]`: the values of category `c` in month `m`. */
  function Matches(rows: seq<Row>, c: string, m: string): (r: seq<int>)
    ensures |r| <= |rows|
  {
    if |rows| == 0 then []
    else if rows[0].category == c && rows[0].month == m then [rows[0].value] + Matches(rows[1..], c, m)
    else Matches(rows[1..], c, m)
  }

  datatype LookupError = NoRow(category: string, month: string) | SeveralRows(category: string, month: string)

  /** `int(segment_df[df.month == m][<metric>])`: converting the selection to
      an int succeeds only when it holds exactly one value. */
  function Lookup(rows: seq<Row>, c: string, m: string): (r: Result<int, LookupError>)
    ensures r.Ok? <==> |Matches(rows, c, m)| == 1
    ensures r.Ok? ==> r.value == Matches(rows, c, m)[0]
    ensures r.Err? ==> (r.error.NoRow? <==> |Matches(rows, c, m)| == 0)
  {
    var vs := Matches(rows, c, m);
    if |vs| == 1 then Ok(vs[0])
    else if |vs| == 0 then Err(NoRow(c, m))
    else Err(SeveralRows(c, m))
  }

  lemma {:induction false} MatchesAreRows(rows: seq<Row>, c: string, m: string)
    ensures forall v :: v in Matches(rows, c, m) <==> Row(c, m, v) in rows
    ensures |Matches(rows, c, m)| == 0 <==> !exists k :: 0 <= k < |rows| && rows[k].category == c && rows[k].month == m
  {
    if |rows| > 0 {
      MatchesAreRows(rows[1..], c, m);
      assert rows == [rows[0]] + rows[1..];
      if |Matches(rows, c, m)| == 0 {
        forall k | 0 < k < |rows|
          ensures !(rows[k].category == c && rows[k].month == m)
        {
          assert rows[1..][k - 1] == rows[k];
        }
      } else if rows[0].category != c || rows[0].month != m {
        var k :| 0 <= k < |rows[1..]| && rows[1..][k].category == c && rows[1..][k].month == m;
        assert rows[k + 1] == rows[1..][k];
      }
    }
  }

  /** The value the chart uses for (c, m): the looked-up value when the
      lookup succeeds (a failed lookup stops the chart). */
  function Cell(rows: seq<Row>, c: string, m: string): int {
    match Lookup(rows, c, m)
    case Ok(v) => v
    case Err(_) => 0
  }

  /** Every category has exactly one row for every month: what the charts'
      lookups demand. */
  predicate Complete(rows: seq<Row>) {
    forall c, m :: c in Categories(rows) && m in Months(rows) ==> |Matches(rows, c, m)| == 1
  }

  /** Each category's rows come in the order of the month buckets, as the
      queries' `order by <category>, <month>` delivers them. */
  predicate Aligned(rows: seq<Row>) {
    forall c, k :: c in Categories(rows) && 0 <= k < |CategoryRows(rows, c)| && k < |Months(rows)| ==>
      CategoryRows(rows, c)[k].month == Months(rows)[k]
  }

  /** The metric summed over all rows of month `m`, whatever their category. */
  function ColumnSum(rows: seq<Row>, m: string): int {
    if |rows| == 0 then 0 else (if rows[0].month == m then rows[0].value else 0) + ColumnSum(rows[1..], m)
  }

  /** The values of the categories `cs` in month `m`, stacked: the height the
      stack reaches after those layers. */
  function StackedSum(rows: seq<Row>, cs: seq<string>, m: string): int {
    if |cs| == 0 then 0 else StackedSum(rows, cs[..|cs| - 1], m) + Cell(rows, cs[|cs| - 1], m)
  }

  function Sum(s: seq<int>): int {
    if |s| == 0 then 0 else s[0] + Sum(s[1..])
  }

  /** How many rows category `c` has in month `m`, seen from its month column. */
  lemma {:induction false} MatchesCountMonthOccurrences(rows: seq<Row>, c: string, m: string)
    ensures |Matches(rows, c, m)| == multiset(MonthColumn(CategoryRows(rows, c)))[m]
  {
    if |rows| > 0 {
      var rest := CategoryRows(rows[1..], c);
      MatchesCountMonthOccurrences(rows[1..], c, m);
      if rows[0].category == c {
        assert CategoryRows(rows, c) == [rows[0]] + rest;
        assert ([rows[0]] + rest)[1..] == rest;
        assert MonthColumn(CategoryRows(rows, c)) == [rows[0].month] + MonthColumn(rest);
        assert multiset(MonthColumn(CategoryRows(rows, c))) == multiset{rows[0].month} + multiset(MonthColumn(rest));
        if rows[0].month == m {
          assert Matches(rows, c, m) == [rows[0].value] + Matches(rows[1..], c, m);
        } else {
          assert Matches(rows, c, m) == Matches(rows[1..], c, m);
        }
      } else {
        assert CategoryRows(rows, c) == rest;
        assert Matches(rows, c, m) == Matches(rows[1..], c, m);
      }
    }
  }

  /** With every (category, month) pair present once, each category has one
      row per month bucket: the bar call's heights match its x positions. */
  lemma CompleteMeansOneRowPerMonth(rows: seq<Row>, c: string)
    requires Complete(rows) && c in Categories(rows)
    ensures |CategoryRows(rows, c)| == |Months(rows)|
  {
    var s := MonthColumn(CategoryRows(rows, c));
    var xs := Months(rows);
    UniqueSameValues(MonthColumn(rows));
    forall x | x in s
      ensures x in xs
    {
      var k :| 0 <= k < |s| && s[k] == x;
      var row := CategoryRows(rows, c)[k];
      CategoryRowIsRow(rows, c, k);
      var p :| 0 <= p < |rows| && rows[p] == row;
      assert MonthColumn(rows)[p] == x;
    }
    forall x | x in xs
      ensures multiset(s)[x] == 1
    {
      MatchesCountMonthOccurrences(rows, c, x);
    }
    OnceEachMeansSameLength(s, xs);
  }

  lemma {:induction false} TwoMatchingRows(rows: seq<Row>, p: nat, q: nat)
    requires p < q < |rows|
    requires rows[p].category == rows[q].category && rows[p].month == rows[q].month
    ensures |Matches(rows, rows[p].category, rows[p].month)| >= 2
  {
    var c, m := rows[p].category, rows[p].month;
    if p == 0 {
      MatchesAreRows(rows[1..], c, m);
      assert rows[1..][q - 1] == rows[q];
    } else {
      assert rows[1..][p - 1] == rows[p] && rows[1..][q - 1] == rows[q];
      TwoMatchingRows(rows[1..], p - 1, q - 1);
    }
  }

  /** Two rows for the same (category, month) pair break completeness. */
  lemma DuplicatePairBreaksComplete(rows: seq<Row>, p: nat, q: nat)
    requires p < q < |rows|
    requires rows[p].category == rows[q].category && rows[p].month == rows[q].month
    ensures !Complete(rows)
  {
    TwoMatchingRows(rows, p, q);
    UniqueSameValues(CategoryColumn(rows));
    UniqueSameValues(MonthColumn(rows));
    assert CategoryColumn(rows)[p] in Categories(rows);
    assert MonthColumn(rows)[p] in Months(rows);
  }

  lemma {:induction false} MatchSumStep(rows: seq<Row>, cs: seq<string>, m: string)
    requires |rows| > 0 && NoDuplicates(cs)
    ensures MatchSum(rows, cs, m) ==
      MatchSum(rows[1..], cs, m) + (if rows[0].month == m && rows[0].category in cs then rows[0].value else 0)
  {
    if |cs| > 0 {
      var p := cs[..|cs| - 1];
      var c := cs[|cs| - 1];
      assert cs == p + [c];
      assert NoDuplicates(p) by {
        forall i, j | 0 <= i < j < |p| ensures p[i] != p[j] {
          assert p[i] == cs[i] && p[j] == cs[j];
        }
      }
      assert c !in p;
      MatchSumStep(rows, p, m);
      var rest := Matches(rows[1..], c, m);
      if rows[0].category == c && rows[0].month == m {
        assert Matches(rows, c, m) == [rows[0].value] + rest;
        assert ([rows[0].value] + rest)[1..] == rest;
        assert Sum(Matches(rows, c, m)) == rows[0].value + Sum(rest);
      } else {
        assert Matches(rows, c, m) == rest;
      }
      assert (rows[0].category in cs) <==> (rows[0].category in p || rows[0].category == c);
    }
  }

  /** Sum over the categories `cs` of all their values in month `m`. */
  function MatchSum(rows: seq<Row>, cs: seq<string>, m: string): int {
    if |cs| == 0 then 0 else MatchSum(rows, cs[..|cs| - 1], m) + Sum(Matches(rows, cs[|cs| - 1], m))
  }

  /** Grouping the rows of a month by category loses nothing. */
  lemma {:induction false} MatchSumIsColumnSum(rows: seq<Row>, cs: seq<string>, m: string)
    requires NoDuplicates(cs)
    requires forall k :: 0 <= k < |rows| ==> rows[k].category in cs
    ensures MatchSum(rows, cs, m) == ColumnSum(rows, m)
  {
    if |rows| == 0 {
      EmptyMatchSum(cs, m);
    } else {
      MatchSumStep(rows, cs, m);
      forall k | 0 <= k < |rows[1..]|
        ensures rows[1..][k].category in cs
      {
        assert rows[1..][k] == rows[k + 1];
      }
      MatchSumIsColumnSum(rows[1..], cs, m);
      assert rows[0].category in cs;
    }
  }

  lemma {:induction false} EmptyMatchSum(cs: seq<string>, m: string)
    ensures MatchSum([], cs, m) == 0
  {
    if |cs| > 0 {
      EmptyMatchSum(cs[..|cs| - 1], m);
    }
  }

  lemma {:induction false} StackedSumIsMatchSum(rows: seq<Row>, cs: seq<string>, m: string)
    requires forall k :: 0 <= k < |cs| ==> |Matches(rows, cs[k], m)| == 1
    ensures StackedSum(rows, cs, m) == MatchSum(rows, cs, m)
  {
    if |cs| > 0 {
      var p := cs[..|cs| - 1];
      forall k | 0 <= k < |p|
        ensures |Matches(rows, p[k], m)| == 1
      {
        assert p[k] == cs[k];
      }
      StackedSumIsMatchSum(rows, p, m);
      var vs := Matches(rows, cs[|cs| - 1], m);
      assert |vs| == 1;
      assert vs == [vs[0]];
      assert Sum(vs) == vs[0];
    }
  }

  /** The full stack of a month reaches the month's column total: the sum of
      every row of that month, each category's value counted once. */
  lemma StackTopIsColumnSum(rows: seq<Row>, m: string)
    requires Complete(rows) && m in Months(rows)
    ensures StackedSum(rows, Categories(rows), m) == ColumnSum(rows, m)
  {
    var cs := Categories(rows);
    forall k | 0 <= k < |cs|
      ensures |Matches(rows, cs[k], m)| == 1
    {
      assert cs[k] in cs;
    }
    StackedSumIsMatchSum(rows, cs, m);
    UniqueSameValues(CategoryColumn(rows));
    forall k | 0 <= k < |rows|
      ensures rows[k].category in cs
    {
      assert CategoryColumn(rows)[k] == rows[k].category;
    }
    MatchSumIsColumnSum(rows, cs, m);
  }

  /** Under alignment, the k-th row of a category (the height its bar draws
      in bucket k) is the value the labels look up for bucket k. */
  lemma AlignedRowIsCell(rows: seq<Row>, c: string, k: nat)
    requires Complete(rows) && Aligned(rows) && c in Categories(rows) && k < |Months(rows)|
    ensures k < |CategoryRows(rows, c)|
    ensures CategoryRows(rows, c)[k].value == Cell(rows, c, Months(rows)[k])
  {
    CompleteMeansOneRowPerMonth(rows, c);
    var row := CategoryRows(rows, c)[k];
    var m := Months(rows)[k];
    CategoryRowIsRow(rows, c, k);
    assert row.month == m && row.category == c && row in rows;
    assert m in Months(rows);
    RowValueIsCell(rows, row);
  }

  /** A row whose (category, month) pair is unique carries the looked-up value. */
  lemma RowValueIsCell(rows: seq<Row>, row: Row)
    requires row in rows && |Matches(rows, row.category, row.month)| == 1
    ensures Cell(rows, row.category, row.month) == row.value
  {
    MatchesAreRows(rows, row.category, row.month);
    assert row.value in Matches(rows, row.category, row.month);
  }
}

=== FILE: players.dfy ===
/** The players report: one unstacked bar per month bucket holding the
    number of distinct players, with each bucket's count written above it. */
module Players {
  import opened Wrappers
  import opened Sequences
  import opened Styles
  import opened Charts
  import opened ChartFacts

  /** One row of the players query: the month label and the number of
      distinct players (ids above 1, so bots excluded) in that month. */
  datatype MonthCount = MonthCount(month: string, count: int)

  const BarColor := "#1f77b4"

  const Headroom := 500
  const LabelOffset := 100

  /** The `month` column, `df["month"]`. */
  function MonthColumn(rows: seq<MonthCount>): (r: seq<string>)
    ensures |r| == |rows|
  {
    if |rows| == 0 then [] else MonthColumn(rows[..|rows| - 1]) + [rows[|rows| - 1].month]
  }

  /** The `count` column, `df['count']`: the bar heights, in query order. */
  function CountColumn(rows: seq<MonthCount>): (r: seq<int>)
    ensures |r| == |rows|
  {
    if |rows| == 0 then [] else CountColumn(rows[..|rows| - 1]) + [rows[|rows| - 1].count]
  }

  lemma {:induction false} ColumnsAt(rows: seq<MonthCount>, k: nat)
    requires k < |rows|
    ensures MonthColumn(rows)[k] == rows[k].month && CountColumn(rows)[k] == rows[k].count
  {
    if k < |rows| - 1 {
      ColumnsAt(rows[..|rows| - 1], k);
    }
  }

  /** `df["month"].unique()`: the x-axis buckets, each month label once. */
  function Buckets(rows: seq<MonthCount>): (r: seq<string>)
    ensures NoDuplicates(r) && |r| <= |rows|
    ensures forall m :: m in r <==> m in MonthColumn(rows)
  {
    UniqueSameValues(MonthColumn(rows));
    Unique(MonthColumn(rows))
  }

  /** `df[df.month == m]['count']`: the counts of the rows labelled `m`. */
  function CountsIn(rows: seq<MonthCount>, m: string): (r: seq<int>)
    ensures |r| <= |rows|
    ensures forall v :: v in r ==> MonthCount(m, v) in rows
  {
    if |rows| == 0 then []
    else CountsIn(rows[..|rows| - 1], m) + (if rows[|rows| - 1].month == m then [rows[|rows| - 1].count] else [])
  }

  /** `int(df[df.month == m]['count'])`: defined only for exactly one row. */
  function CountOf(rows: seq<MonthCount>, m: string): (r: Option<int>)
    ensures r.Some? <==> |CountsIn(rows, m)| == 1
    ensures r.Some? <==> multiset(MonthColumn(rows))[m] == 1
  {
    CountsInCount(rows, m);
    var vs := CountsIn(rows, m);
    if |vs| == 1 then Some(vs[0]) else None
  }

  /** The selection holds one count for every row labelled `m`: as many as
      the month column has entries `m`. */
  lemma {:induction false} CountsInCount(rows: seq<MonthCount>, m: string)
    ensures |CountsIn(rows, m)| == multiset(MonthColumn(rows))[m]
  {
    if |rows| > 0 {
      CountsInCount(rows[..|rows| - 1], m);
    }
  }

  /** With every month label distinct, looking up a row's month finds that row's count. */
  lemma {:induction false} DistinctMonthCount(rows: seq<MonthCount>, k: nat)
    requires NoDuplicates(MonthColumn(rows)) && k < |rows|
    ensures CountOf(rows, rows[k].month) == Some(rows[k].count)
  {
    var p := rows[..|rows| - 1];
    var m := rows[k].month;
    assert NoDuplicates(MonthColumn(p)) by {
      forall i, j | 0 <= i < j < |p| ensures MonthColumn(p)[i] != MonthColumn(p)[j] {
        ColumnsAt(rows, i);
        ColumnsAt(rows, j);
        ColumnsAt(p, i);
        ColumnsAt(p, j);
      }
    }
    if k < |rows| - 1 {
      DistinctMonthCount(p, k);
      ColumnsAt(rows, k);
      ColumnsAt(rows, |rows| - 1);
      assert rows[|rows| - 1].month != m;
    } else {
      forall j | 0 <= j < |p|
        ensures p[j].month != m
      {
        ColumnsAt(rows, j);
        ColumnsAt(rows, k);
      }
      MonthAbsent(p, m);
    }
  }

  /** A label that no row carries selects nothing. */
  lemma {:induction false} MonthAbsent(rows: seq<MonthCount>, m: string)
    requires forall k :: 0 <= k < |rows| ==> rows[k].month != m
    ensures CountsIn(rows, m) == []
  {
    if |rows| > 0 {
      MonthAbsent(rows[..|rows| - 1], m);
    }
  }

  /** The count labels: label k shows count k, `LabelOffset` above its bar. */
  function CountLabels(counts: seq<int>): (r: seq<Command>)
    ensures |r| == |counts|
  {
    if |counts| == 0 then []
    else
      var k := |counts| - 1;
      CountLabels(counts[..k]) + [Text(Top, k, counts[k] + LabelOffset, counts[k])]
  }

  /** The bases of an unstacked bar: `bar` without `bottom` rests every bar on zero. */
  function Ground(n: nat): seq<int> {
    seq(n, _ => 0)
  }

  /** The chart can be drawn: there is data and no month label occurs twice. */
  predicate PlayersRenderable(rows: seq<MonthCount>) {
    |rows| > 0 && NoDuplicates(MonthColumn(rows))
  }

  /** Everything a renderable players chart draws: the bars on the ground,
      the y limit above the largest count, and the count labels. */
  function PlayersChart(rows: seq<MonthCount>): (r: seq<Command>)
    requires PlayersRenderable(rows)
    ensures |r| == 2 * |rows| + 1
  {
    BarSegments(None, BarColor, Ground(|rows|), CountColumn(rows)) +
      ([YLimit(MaxOf(CountColumn(rows)) + Headroom)] + CountLabels(CountColumn(rows)))
  }

  /** `players_per_month`: one bar per row at the bucket positions (failed
      here when some month label repeats: a shape mismatch, or with a single
      distinct label the count lookup), nothing more for an empty result (its
      x limits fail), then the y limit and the count of each bucket, looked
      up by its month label. */
  method PlayersPerMonth(ax: Axes, rows: seq<MonthCount>) returns (status: Status)
    modifies ax
    ensures status.Drawn? <==> PlayersRenderable(rows)
    ensures status.Drawn? ==> ax.log == old(ax.log) + PlayersChart(rows)
  {
    var months := Buckets(rows);
    BucketsOfDistinctMonths(rows);
    var ok := ax.Bar(None, BarColor, Ground(|months|), CountColumn(rows));
    if !ok {
      return Failed(ShapeMismatch(None));
    }
    if |months| == 0 {
      return Failed(EmptyChart);
    }
    LimitAndLabel(ax, rows, months);
    AppendAssoc(old(ax.log), BarSegments(None, BarColor, Ground(|rows|), CountColumn(rows)),
      [YLimit(MaxOf(CountColumn(rows)) + Headroom)] + CountLabels(CountColumn(rows)));
    return Drawn;
  }

  /** There are as many buckets as rows exactly when no month label repeats,
      and then the buckets are the month column itself. */
  lemma BucketsOfDistinctMonths(rows: seq<MonthCount>)
    ensures |Buckets(rows)| == |rows| <==> NoDuplicates(MonthColumn(rows))
    ensures NoDuplicates(MonthColumn(rows)) ==> Buckets(rows) == MonthColumn(rows)
  {
    if |Buckets(rows)| == |rows| {
      UniqueFullLengthDistinct(MonthColumn(rows));
    }
    if NoDuplicates(MonthColumn(rows)) {
      UniqueOfDistinct(MonthColumn(rows));
    }
  }

  /** The closing steps: the y limit above the largest count, then the labels. */
  method LimitAndLabel(ax: Axes, rows: seq<MonthCount>, months: seq<string>)
    requires PlayersRenderable(rows) && months == MonthColumn(rows)
    modifies ax
    ensures ax.log == old(ax.log) + ([YLimit(MaxOf(CountColumn(rows)) + Headroom)] + CountLabels(CountColumn(rows)))
  {
    ax.SetYLimit(MaxOf(CountColumn(rows)) + Headroom);
    LabelCounts(ax, rows, months);
    AppendAssoc(old(ax.log), [YLimit(MaxOf(CountColumn(rows)) + Headroom)], CountLabels(CountColumn(rows)));
  }

  /** The label loop: for each bucket, its count looked up by month label
      and written `LabelOffset` above the bar. */
  method LabelCounts(ax: Axes, rows: seq<MonthCount>, months: seq<string>)
    requires NoDuplicates(MonthColumn(rows)) && months == MonthColumn(rows)
    modifies ax
    ensures ax.log == old(ax.log) + CountLabels(CountColumn(rows))
  {
    ghost var counts := CountColumn(rows);
    for i := 0 to |months|
      invariant ax.log == old(ax.log) + CountLabels(counts[..i])
    {
      ColumnsAt(rows, i);
      DistinctMonthCount(rows, i);
      var value := CountOf(rows, months[i]).value;
      assert counts[..i + 1][..i] == counts[..i];
      AppendAssoc(old(ax.log), CountLabels(counts[..i]), [Text(Top, i, value + LabelOffset, value)]);
      ax.PutText(Top, i, value + LabelOffset, value);
    }
    assert counts[..|months|] == counts;
  }

  /** Label k shows count k, `LabelOffset` above it. */
  lemma {:induction false} CountLabelsAt(counts: seq<int>, k: nat)
    requires k < |counts|
    ensures CountLabels(counts)[k] == Text(Top, k, counts[k] + LabelOffset, counts[k])
  {
    var n := |counts| - 1;
    if k < n {
      CountLabelsAt(counts[..n], k);
    }
  }

  /** What a drawn players chart shows for bucket k: a bar on the ground as
      tall as its count, a y limit that clears the count by the headroom, and
      the count written just above the bar and below the limit. */
  lemma PlayersChartAt(rows: seq<MonthCount>, k: nat)
    requires PlayersRenderable(rows) && k < |rows|
    ensures var chart := PlayersChart(rows);
      var n := |rows|;
      |chart| == 2 * n + 1 &&
      chart[k] == Segment(None, BarColor, k, 0, rows[k].count) &&
      chart[n].YLimit? && rows[k].count + Headroom <= chart[n].top &&
      chart[n + 1 + k] == Text(Top, k, rows[k].count + LabelOffset, rows[k].count) &&
      chart[n + 1 + k].y < chart[n].top
  {
    var counts := CountColumn(rows);
    ColumnsAt(rows, k);
    BarSegmentsAt(None, BarColor, Ground(|rows|), counts, k);
    CountLabelsAt(counts, k);
  }

  /** Two rows with one month label make the players chart fail. */
  lemma DuplicateMonthBreaksChart(rows: seq<MonthCount>, p: nat, q: nat)
    requires p < q < |rows| && rows[p].month == rows[q].month
    ensures !PlayersRenderable(rows)
  {
    ColumnsAt(rows, p);
    ColumnsAt(rows, q);
  }
}

=== FILE: query_ranges.dfy ===
/** The calendar-year bounds written into the report queries, and the
    timestamps they let through. */
module QueryRanges {
  import opened Wrappers
  import opened Decimal

  /** The two bounds of a `create_dt between '<low>' and '<high>'` filter. */
  datatype DateRange = DateRange(low: string, high: string)

  /** The year a `'<year>-01-01'` bound names, if it is one. */
  function BoundYear(bound: string): Option<int> {
    if |bound| > 6 && bound[|bound| - 6..] == "-01-01" then ParseInt(bound[..|bound| - 6]) else None
  }

  /** `'{}-01-01'.format(year)`: a bound that names `year` again. */
  function NewYear(year: int): (r: string)
    ensures BoundYear(r) == Some(year)
  {
    var r := IntToString(year) + "-01-01";
    IntRoundTrip(year);
    assert r[..|r| - 6] == IntToString(year);
    r
  }

  /** The bounds of the games, players and heatmap queries:
      `'{year}-01-01'` and `'{year+1}-01-01'`. */
  function YearRange(year: int): (r: DateRange)
    ensures BoundYear(r.low) == Some(year) && BoundYear(r.high) == Some(year + 1)
  {
    DateRange(NewYear(year), NewYear(year + 1))
  }

  /** The bounds of the two weapon queries as written: fixed to 2016, and the
      `.format(year, year+1)` applied to them has no placeholder to fill. */
  function WeaponRangeAsWritten(year: int): (r: DateRange)
    ensures BoundYear(r.low) == Some(2016) && BoundYear(r.high) == Some(2017)
  {
    var r := DateRange("2016-01-01", "2017-01-01");
    WrittenYears();
    r
  }

  /** The bounds written into the weapon queries are those of 2016. */
  lemma WrittenYears()
    ensures NewYear(2016) == "2016-01-01" && NewYear(2017) == "2017-01-01"
  {
    WrittenYear(2016);
    WrittenYear(2017);
  }

  /** The bound of 2016 or 2017 spelt out: "201", the last digit, "-01-01". */
  lemma WrittenYear(year: nat)
    requires year == 2016 || year == 2017
    ensures NewYear(year) == "201" + [DigitChar(year % 10)] + "-01-01"
  {
    assert NatToString(201) == "201";
  }

  /** For every year but 2016 the weapon charts, titled with `year`, draw
      another year's data. */
  lemma WeaponRangeIgnoresYear(year: int)
    requires year != 2016
    ensures WeaponRangeAsWritten(year) != YearRange(year)
    ensures WeaponRangeAsWritten(year) == WeaponRangeAsWritten(2016)
  {
  }

  /** The weapon query bounds with the placeholders filled in, as the titles
      (`... in {year}`) and the unused `format` arguments intend. */
  function WeaponRange(year: int): (r: DateRange)
    ensures BoundYear(r.low) == Some(year) && BoundYear(r.high) == Some(year + 1)
  {
    YearRange(year)
  }

  /** A `create_dt` value: date and microseconds since midnight. */
  datatype Timestamp = Timestamp(year: int, month: int, day: int, micros: int)

  predicate ValidTimestamp(t: Timestamp) {
    1 <= t.month <= 12 && 1 <= t.day <= 31 && 0 <= t.micros < 86400000000
  }

  predicate Before(a: Timestamp, b: Timestamp) {
    a.year < b.year ||
    (a.year == b.year && (a.month < b.month ||
    (a.month == b.month && (a.day < b.day ||
    (a.day == b.day && a.micros < b.micros)))))
  }

  /** The instant a `'<year>-01-01'` bound denotes when compared with a timestamp. */
  function Midnight(bound: string): Option<Timestamp> {
    match BoundYear(bound)
    case Some(y) => Some(Timestamp(y, 1, 1, 0))
    case None => None
  }

  /** `to_char(create_dt, 'Mon')`: the label a timestamp's month bucket gets. */
  function MonthLabel(t: Timestamp): (r: string)
    requires ValidTimestamp(t)
    ensures |r| == 3
  {
    ["Jan", "Feb", "Mar", "Apr", "May", "Jun", "Jul", "Aug", "Sep", "Oct", "Nov", "Dec"][t.month - 1]
  }

  /** Two timestamps share a month label exactly when they are in the same
      month of the year, whatever the year. */
  lemma MonthLabelNamesMonth(t: Timestamp, u: Timestamp)
    requires ValidTimestamp(t) && ValidTimestamp(u)
    ensures MonthLabel(t) == MonthLabel(u) <==> t.month == u.month
  {
  }

  /** SQL `t between low and high`, as the queries use it: both ends
      included, so beyond the half-open range it admits the upper bound's
      instant itself and nothing else. */
  predicate BetweenAsWritten(t: Timestamp, r: DateRange)
    ensures WithinRange(t, r) ==> BetweenAsWritten(t, r)
    ensures BetweenAsWritten(t, r) && !WithinRange(t, r) ==> Midnight(r.high) == Some(t)
  {
    Midnight(r.low).Some? && Midnight(r.high).Some? &&
    !Before(t, Midnight(r.low).value) && !Before(Midnight(r.high).value, t)
  }

  /** The first instant of the next year passes the inclusive filter, and its
      month bucket is labelled "Jan" like the report year's own January. */
  lemma BetweenAdmitsNextNewYear(year: int)
    ensures var t := Timestamp(year + 1, 1, 1, 0);
      ValidTimestamp(t) && BetweenAsWritten(t, YearRange(year)) && t.year != year &&
      MonthLabel(t) == MonthLabel(Timestamp(year, 1, 1, 0))
  {
  }

  /** The half-open filter `low <= t < high` of a calendar year. */
  predicate WithinRange(t: Timestamp, r: DateRange) {
    Midnight(r.low).Some? && Midnight(r.high).Some? &&
    !Before(t, Midnight(r.low).value) && Before(t, Midnight(r.high).value)
  }

  /** With the half-open filter a report year holds exactly that year's timestamps. */
  lemma WithinYearRangeIsCalendarYear(t: Timestamp, year: int)
    requires ValidTimestamp(t)
    ensures WithinRange(t, YearRange(year)) <==> t.year == year
  {
  }
}

=== FILE: reports.dfy ===
/** The monthly reports of the script: which rows each query keeps, over
    which dates, and the stacked chart each one draws of them. */
module Reports {
  import opened Wrappers
  import opened Sequences
  import opened Styles
  import opened Frames
  import opened Charts
  import opened QueryRanges

  datatype Report = Games | Players | WeaponDamage | WeaponFrags

  /** The date bounds each report's query is written with: the report year
      for games and players, 2016 for both weapon reports. */
  function QueryRangeAsWritten(report: Report, year: int): (r: DateRange)
    ensures report.Games? || report.Players? ==> BoundYear(r.low) == Some(year)
    ensures report.WeaponDamage? || report.WeaponFrags? ==> BoundYear(r.low) == Some(2016)
  {
    match report
    case Games => YearRange(year)
    case Players => YearRange(year)
    case WeaponDamage => WeaponRangeAsWritten(year)
    case WeaponFrags => WeaponRangeAsWritten(year)
  }

  /** For any other year than 2016, mid-year of the report year is outside
      what the weapon queries select. */
  lemma WeaponQueryMissesReportYear(report: Report, year: int)
    requires report.WeaponDamage? || report.WeaponFrags?
    requires year != 2016
    ensures var t := Timestamp(year, 6, 15, 0);
      ValidTimestamp(t) && !BetweenAsWritten(t, QueryRangeAsWritten(report, year))
  {
    WeaponRangeIgnoresYear(year);
  }

  /** The date bounds every report's query is meant to have: the report
      year and the next. */
  function QueryRange(report: Report, year: int): (r: DateRange)
    ensures BoundYear(r.low) == Some(year) && BoundYear(r.high) == Some(year + 1)
  {
    match report
    case Games => YearRange(year)
    case Players => YearRange(year)
    case WeaponDamage => WeaponRange(year)
    case WeaponFrags => WeaponRange(year)
  }

  /** With the intended bounds and the half-open filter, every report keeps
      exactly the report year's timestamps. */
  lemma QueryRangeSelectsReportYear(report: Report, year: int, t: Timestamp)
    requires ValidTimestamp(t)
    ensures WithinRange(t, QueryRange(report, year)) <==> t.year == year
  {
    WithinYearRangeIsCalendarYear(t, year);
  }

  /** Two timestamps the intended filter keeps share a month label exactly
      when they fall in the same month bucket: the grouped rows never repeat
      a (category, month label) pair. */
  lemma QueryRangeLabelsBucketsApart(report: Report, year: int, t: Timestamp, u: Timestamp)
    requires ValidTimestamp(t) && ValidTimestamp(u)
    requires WithinRange(t, QueryRange(report, year)) && WithinRange(u, QueryRange(report, year))
    ensures MonthLabel(t) == MonthLabel(u) <==> (t.year, t.month) == (u.year, u.month)
  {
    QueryRangeSelectsReportYear(report, year, t);
    QueryRangeSelectsReportYear(report, year, u);
    MonthLabelNamesMonth(t, u);
  }

  /** Rows of the six game types the query keeps make at most six layers. */
  lemma GameTypeLayers(rows: seq<Row>)
    requires forall k :: 0 <= k < |rows| ==> rows[k].category in GameTypes
    ensures |Categories(rows)| <= |GameTypes|
  {
    var cs := Categories(rows);
    forall x | x in cs
      ensures x in GameTypes
    {
      var k :| 0 <= k < |rows| && CategoryColumn(rows)[k] == x;
    }
    GameTypesDistinct();
    DistinctDrawnFromAtMost(cs, GameTypes);
  }

  /** The query keeps only the six game types, so the games chart has at
      most six layers and each gets its own palette colour. */
  lemma GamesLayerColorsDistinct(rows: seq<Row>, i: nat, j: nat)
    requires forall k :: 0 <= k < |rows| ==> rows[k].category in GameTypes
    requires i < j < |Categories(rows)|
    ensures LayerColor(GamesStyle.coloring, i, Categories(rows)[i]).Some?
    ensures LayerColor(GamesStyle.coloring, i, Categories(rows)[i]) != LayerColor(GamesStyle.coloring, j, Categories(rows)[j])
  {
    var cs := Categories(rows);
    GameTypeLayers(rows);
    GamesLayerColor(i, cs[i]);
    GamesLayerColor(j, cs[j]);
    GameColorsDistinct(i, j);
  }

  /** The palette colours ten layers: the games chart is drawn exactly when
      there is data, every (game type, month) pair has one row, and there
      are at most ten game types. */
  lemma GamesRenderable(rows: seq<Row>)
    ensures Renderable(rows, GamesStyle) <==> |rows| > 0 && Complete(rows) && |Categories(rows)| <= 10
  {
    if |Categories(rows)| > 10 {
      GamesLayerColor(10, Categories(rows)[10]);
    } else {
      forall i | 0 <= i < |Categories(rows)|
        ensures LayerColor(GamesStyle.coloring, i, Categories(rows)[i]).Some?
      {
        GamesLayerColor(i, Categories(rows)[i]);
      }
    }
  }

  /** A weapon chart is drawn exactly when there is data, every (weapon,
      month) pair has one row, and every weapon is in the colour table. */
  lemma WeaponRenderable(rows: seq<Row>, style: StackStyle)
    requires style.coloring == ByTable(WeaponColors)
    ensures Renderable(rows, style) <==>
      |rows| > 0 && Complete(rows) && forall c :: c in Categories(rows) ==> c in WeaponColors
  {
    if Renderable(rows, style) {
      forall c | c in Categories(rows)
        ensures c in WeaponColors
      {
        var i :| 0 <= i < |Categories(rows)| && Categories(rows)[i] == c;
        assert LayerColor(style.coloring, i, c).Some?;
      }
    }
  }

  /** `games_per_month`: game types stacked in palette colours, segments
      above 2000 games labelled, 3500 of headroom, totals 300 above the
      stacks. Rows of the six queried game types never run out of colours. */
  method GamesPerMonth(ax: Axes, rows: seq<Row>) returns (status: Status)
    modifies ax
    ensures status.Drawn? <==> |rows| > 0 && Complete(rows) && |Categories(rows)| <= 10
    ensures (forall k :: 0 <= k < |rows| ==> rows[k].category in GameTypes) ==>
      (status.Drawn? <==> |rows| > 0 && Complete(rows))
    ensures status.Drawn? ==> ax.log == old(ax.log) + Chart(rows, GamesStyle)
  {
    GamesRenderable(rows);
    if forall k :: 0 <= k < |rows| ==> rows[k].category in GameTypes {
      GameTypeLayers(rows);
    }
    status := StackedBars(ax, rows, GamesStyle);
  }

  /** `weapon_damage_per_month`: weapons stacked in their table colours,
      labels in thousands for segments above 10000 thousand, 5500000 of
      headroom, totals 500000 above the stacks. */
  method WeaponDamagePerMonth(ax: Axes, rows: seq<Row>) returns (status: Status)
    modifies ax
    ensures status.Drawn? <==>
      |rows| > 0 && Complete(rows) && forall c :: c in Categories(rows) ==> c in WeaponColors
    ensures status.Drawn? ==> ax.log == old(ax.log) + Chart(rows, DamageStyle)
  {
    WeaponRenderable(rows, DamageStyle);
    status := StackedBars(ax, rows, DamageStyle);
  }

  /** `weapon_frags_per_month`: weapons stacked in their table colours,
      segments above 25000 frags labelled, 50000 of headroom, totals 3500
      above the stacks. */
  method WeaponFragsPerMonth(ax: Axes, rows: seq<Row>) returns (status: Status)
    modifies ax
    ensures status.Drawn? <==>
      |rows| > 0 && Complete(rows) && forall c :: c in Categories(rows) ==> c in WeaponColors
    ensures status.Drawn? ==> ax.log == old(ax.log) + Chart(rows, FragsStyle)
  {
    WeaponRenderable(rows, FragsStyle);
    status := StackedBars(ax, rows, FragsStyle);
  }

  /** A worked games chart: 2500 capture-the-flag games and 100 deathmatch
      games in January. */
  const ExampleRows := [Row("ctf", "Jan", 2500), Row("dm", "Jan", 100)]

  lemma ExampleColumns()
    ensures Months(ExampleRows) == ["Jan"] && Categories(ExampleRows) == ["ctf", "dm"]
  {
    assert MonthColumn(ExampleRows) == ["Jan", "Jan"];
    assert CategoryColumn(ExampleRows) == ["ctf", "dm"];
    assert ["Jan", "Jan"][..1] == ["Jan"];
    UniqueOfDistinct(["Jan"]);
    UniqueOfDistinct(["ctf", "dm"]);
  }

  /** The example is a complete games result, so it is drawn. */
  lemma ExampleFrame()
    ensures Months(ExampleRows) == ["Jan"] && Categories(ExampleRows) == ["ctf", "dm"]
    ensures Cell(ExampleRows, "ctf", "Jan") == 2500 && Cell(ExampleRows, "dm", "Jan") == 100
    ensures Renderable(ExampleRows, GamesStyle)
  {
    ExampleColumns();
    assert Matches(ExampleRows, "ctf", "Jan") == [2500];
    assert Matches(ExampleRows, "dm", "Jan") == [100];
    assert Complete(ExampleRows);
    GamesRenderable(ExampleRows);
  }

  /** The January total of the example is 2600. */
  lemma ExampleTotals()
    ensures Totals(ExampleRows) == [2600]
  {
    var rows := ExampleRows;
    ExampleFrame();
    assert Categories(rows)[..2] == ["ctf", "dm"];
    assert StackedSum(rows, ["ctf", "dm"], "Jan") == 2600 by {
      assert ["ctf", "dm"][..1] == ["ctf"] && ["ctf"][..0] == [];
    }
    BasesAt(rows, 2, 0);
    var totals := Totals(rows);
    assert |totals| == 1 && totals[0] == 2600;
  }

  /** In the example the capture-the-flag segment, above 2000, is labelled
      halfway up; the deathmatch segment is not labelled. */
  lemma ExampleLabels()
    ensures InlineLabel(ExampleRows, GamesStyle, 0, 0) == [Text(Inline, 0, 1250, 2500)]
    ensures InlineLabel(ExampleRows, GamesStyle, 1, 0) == []
  {
    var rows := ExampleRows;
    ExampleFrame();
    assert LayerBase(rows, 0, "Jan") == 0 by {
      assert Categories(rows)[..0] == [];
    }
    var ctf := InlineLabel(rows, GamesStyle, 0, 0);
    assert |ctf| == 1;
    assert ctf[0] == Text(Inline, 0, 1250, 2500);
  }
}

=== FILE: sequences.dfy ===
/** Sequence operations the report code borrows from its libraries:
    pandas' `unique()` and Python's `max()`, with the facts the charts need. */
module Sequences {

  predicate NoDuplicates<T(==)>(s: seq<T>) {
    forall i, j :: 0 <= i < j < |s| ==> s[i] != s[j]
  }

  /** pandas' `Series.unique()`: the distinct values of `s`, each once, in
      the order of their first appearance (not sorted). */
  function Unique<T(==, !new)>(s: seq<T>): (u: seq<T>)
    ensures NoDuplicates(u)
    ensures |u| <= |s|
    ensures |u| == 0 <==> |s| == 0
  {
    if |s| == 0 then []
    else
      var u := Unique(s[..|s| - 1]);
      assert s == s[..|s| - 1] + [s[|s| - 1]];
      if s[|s| - 1] in u then u else u + [s[|s| - 1]]
  }

  /** `unique()` keeps every value of `s` and adds none. */
  lemma {:induction false} UniqueSameValues<T(!new)>(s: seq<T>)
    ensures forall x :: x in Unique(s) <==> x in s
  {
    if |s| > 0 {
      UniqueSameValues(s[..|s| - 1]);
      assert s == s[..|s| - 1] + [s[|s| - 1]];
    }
  }

  /** A sequence without repeated values is its own `unique()`. */
  lemma {:induction false} UniqueOfDistinct<T(!new)>(s: seq<T>)
    requires NoDuplicates(s)
    ensures Unique(s) == s
  {
    if |s| > 0 {
      var p := s[..|s| - 1];
      assert NoDuplicates(p) by {
        forall i, j | 0 <= i < j < |p| ensures p[i] != p[j] {
          assert p[i] == s[i] && p[j] == s[j];
        }
      }
      UniqueOfDistinct(p);
      assert s == p + [s[|s| - 1]];
    }
  }

  /** `unique()` drops nothing only when there was nothing to drop. */
  lemma {:induction false} UniqueFullLengthDistinct<T(!new)>(s: seq<T>)
    requires |Unique(s)| == |s|
    ensures NoDuplicates(s)
  {
    if |s| > 0 {
      var p := s[..|s| - 1];
      var last := s[|s| - 1];
      assert s == p + [last];
      UniqueSameValues(p);
      assert last !in Unique(p) && |Unique(p)| == |p|;
      UniqueFullLengthDistinct(p);
      forall i, j | 0 <= i < j < |s| ensures s[i] != s[j] {
        if j == |s| - 1 {
          assert s[i] == p[i];
        } else {
          assert s[i] == p[i] && s[j] == p[j];
        }
      }
    }
  }

  /** First-occurrence order: wherever the j-th distinct value occurs in `s`,
      every earlier distinct value has already occurred before it. */
  lemma {:induction false} UniqueKeepsFirstOccurrenceOrder<T(!new)>(s: seq<T>, i: nat, j: nat, q: nat)
    requires i < j < |Unique(s)| && q < |s| && s[q] == Unique(s)[j]
    ensures Unique(s)[i] in s[..q]
  {
    var n := |s|;
    var p := s[..n - 1];
    var u := Unique(p);
    var last := s[n - 1];
    assert s == p + [last];
    UniqueSameValues(p);
    if last in u {
      if q < n - 1 {
        assert p[q] == s[q];
        UniqueKeepsFirstOccurrenceOrder(p, i, j, q);
        assert p[..q] == s[..q];
      } else {
        assert last in p;
        var q' :| 0 <= q' < |p| && p[q'] == last;
        UniqueKeepsFirstOccurrenceOrder(p, i, j, q');
        assert p[..q'] <= s[..q];
      }
    } else {
      if j < |u| {
        assert q < n - 1;
        assert p[q] == s[q];
        UniqueKeepsFirstOccurrenceOrder(p, i, j, q);
        assert p[..q] == s[..q];
      } else {
        assert q == n - 1;
        assert u[i] in p;
        assert s[..q] == p;
      }
    }
  }

  /** Python's `max()` of a non-empty list of ints. */
  function MaxOf(s: seq<int>): (m: int)
    requires |s| > 0
    ensures m in s
    ensures forall k :: 0 <= k < |s| ==> s[k] <= m
  {
    if |s| == 1 then s[0]
    else
      var rest := MaxOf(s[..|s| - 1]);
      assert s == s[..|s| - 1] + [s[|s| - 1]];
      if s[|s| - 1] > rest then s[|s| - 1] else rest
  }

  lemma {:induction false} DistinctMultiplicity<T>(xs: seq<T>, x: T)
    requires NoDuplicates(xs)
    ensures multiset(xs)[x] == if x in xs then 1 else 0
  {
    if |xs| > 0 {
      var p := xs[..|xs| - 1];
      assert xs == p + [xs[|xs| - 1]];
      DistinctMultiplicity(p, x);
    }
  }

  /** If every value of `s` is one of the distinct values `xs`, and each of
      those occurs in `s` exactly once, then `s` and `xs` have equal length. */
  lemma OnceEachMeansSameLength<T>(s: seq<T>, xs: seq<T>)
    requires NoDuplicates(xs)
    requires forall x :: x in s ==> x in xs
    requires forall x :: x in xs ==> multiset(s)[x] == 1
    ensures |s| == |xs|
  {
    forall x
      ensures multiset(s)[x] == multiset(xs)[x]
    {
      DistinctMultiplicity(xs, x);
    }
    assert multiset(s) == multiset(xs);
    calc {
      |s|;
      |multiset(s)|;
      |multiset(xs)|;
      |xs|;
    }
  }

  function RemoveValue<T(==)>(xs: seq<T>, x: T): (r: seq<T>)
    requires NoDuplicates(xs) && x in xs
    ensures |r| == |xs| - 1 && NoDuplicates(r)
    ensures forall k :: 0 <= k < |r| ==> r[k] in xs && r[k] != x
    ensures forall k :: 0 <= k < |xs| && xs[k] != x ==> xs[k] in r
  {
    var k :| 0 <= k < |xs| && xs[k] == x;
    assert xs == xs[..k] + [x] + xs[k + 1..];
    xs[..k] + xs[k + 1..]
  }

  /** Distinct values drawn from the distinct values `xs` are at most |xs| many. */
  lemma {:induction false} DistinctDrawnFromAtMost<T>(s: seq<T>, xs: seq<T>)
    requires NoDuplicates(s) && NoDuplicates(xs)
    requires forall x :: x in s ==> x in xs
    ensures |s| <= |xs|
  {
    if |s| > 0 {
      var p := s[..|s| - 1];
      var last := s[|s| - 1];
      assert s == p + [last];
      var rest := RemoveValue(xs, last);
      forall y | y in p
        ensures y in rest
      {
        var k :| 0 <= k < |p| && p[k] == y;
        assert s[k] == y && y != last;
        assert y in s;
        var k' :| 0 <= k' < |xs| && xs[k'] == y;
      }
      DistinctDrawnFromAtMost(p, rest);
    }
  }

  /** Proof helper for the drawing logs: concatenation regroups freely. */
  lemma AppendAssoc<T>(a: seq<T>, b: seq<T>, c: seq<T>)
    ensures (a + b) + c == a + (b + c)
  {
  }

}

=== FILE: styles.dfy ===
/** Colours of the stack layers: the game-type palette, sliced by position,
    and the fixed weapon colour table shared with XonStat. */
module Styles {
  import opened Wrappers
  import opened Sequences

  /** Ten HTML colours written back to back, six hex digits each (one
      60-character string, written here in two halves). */
  const Palette: string := "1f77b4ff7f0e2ca02cd627289467bd" + "8c564be377c27f7f7fbcbd2217becf"

  /** The game types the games query keeps (`game_type_cd in (...)`). */
  const GameTypes: seq<string> := ["dm", "ctf", "duel", "cts", "tdm", "ft"]

  function Min(a: int, b: int): int { if a <= b then a else b }

  /** Python's `s[lo:hi]` for non-negative bounds: both bounds are clipped
      to the length, and a reversed range is empty. */
  function Slice(s: string, lo: nat, hi: nat): (r: string)
    ensures |r| == if Min(hi, |s|) <= Min(lo, |s|) then 0 else Min(hi, |s|) - Min(lo, |s|)
    ensures forall k :: 0 <= k < |r| ==> r[k] == s[lo + k]
  {
    var a := Min(lo, |s|);
    var b := Min(hi, |s|);
    if b <= a then "" else s[a..b]
  }

  /** `colors[i*6:i*6+6]`: the i-th six-character chunk of the palette. */
  function PaletteChunk(i: nat): (r: string)
    ensures |r| == if i < 10 then 6 else 0
    ensures forall k :: 0 <= k < |r| ==> r[k] == Palette[6 * i + k]
  {
    Slice(Palette, i * 6, i * 6 + 6)
  }

  /** The colour of the i-th distinct game type, `'#{}'.format(bar_color)`. */
  function GameColor(i: nat): (r: string)
    ensures i < 10 <==> |r| == 7
    ensures i >= 10 <==> r == "#"
    ensures r[0] == '#'
  {
    "#" + PaletteChunk(i)
  }

  /** The palette holds exactly ten chunks; past them the slice is empty. */
  lemma PaletteChunkShape(i: nat)
    ensures i < 10 ==> PaletteChunk(i) == Palette[6 * i..6 * i + 6] && |PaletteChunk(i)| == 6
    ensures i >= 10 ==> PaletteChunk(i) == ""
  {
    assert |Palette| == 60;
  }

  /** The first ten game types get ten different colours. */
  lemma GameColorsDistinct(i: nat, j: nat)
    requires i < j < 10
    ensures GameColor(i) != GameColor(j)
  {
    ChunkPrefixesDistinct(i, j);
    GameColorPrefix(i);
    GameColorPrefix(j);
  }

  lemma GameColorPrefix(i: nat)
    requires i < 10
    ensures |GameColor(i)| == 7 && GameColor(i)[1..3] == Palette[6 * i..6 * i + 2]
  {
    PaletteChunkShape(i);
  }

  /** Two chunks already differ in their first two characters. */
  lemma ChunkPrefixesDistinct(i: nat, j: nat)
    requires i < j < 10
    ensures Palette[6 * i..6 * i + 2] != Palette[6 * j..6 * j + 2]
  {
    assert i == 0 || i == 1 || i == 2 || i == 3 || i == 4 || i == 5 || i == 6 || i == 7 || i == 8;
    assert j == 1 || j == 2 || j == 3 || j == 4 || j == 5 || j == 6 || j == 7 || j == 8 || j == 9;
    assert Palette[6 * i] != Palette[6 * j] || Palette[6 * i + 1] != Palette[6 * j + 1];
  }

  /** The weapon colours of XonStat; renamed weapons keep their colour. */
  const WeaponColors: map<string, string> := map[
    "arc" := "#b8e9ff",
    "laser" := "#ff5933",
    "blaster" := "#ff5933",
    "shotgun" := "#1f77b4",
    "uzi" := "#b9e659",
    "machinegun" := "#b9e659",
    "grenadelauncher" := "#ff2600",
    "mortar" := "#ff2600",
    "minelayer" := "#bfbf00",
    "electro" := "#597fff",
    "crylink" := "#d940ff",
    "nex" := "#00e6ff",
    "vortex" := "#00e6ff",
    "hagar" := "#d98059",
    "rocketlauncher" := "#ffbf33",
    "devastator" := "#ffbf33",
    "porto" := "#7fff7f",
    "minstanex" := "#d62728",
    "vaporizer" := "#d62728",
    "hook" := "#a5ffd8",
    "hlac" := "#ffa533",
    "seeker" := "#ff5959",
    "rifle" := "#9467bd",
    "tuba" := "#d87f3f",
    "fireball" := "#33ff33"
  ]

  /** `weapon_colors[weapon_cd]`: None where Python raises KeyError. */
  function WeaponColor(code: string): (r: Option<string>)
    ensures code in WeaponColors ==> r == Some(WeaponColors[code])
    ensures code !in WeaponColors ==> r == None
  {
    if code in WeaponColors then Some(WeaponColors[code]) else None
  }

  /** The old and new names of the same weapon. */
  const WeaponRenames: seq<(string, string)> := [
    ("laser", "blaster"), ("uzi", "machinegun"), ("grenadelauncher", "mortar"),
    ("nex", "vortex"), ("rocketlauncher", "devastator"), ("minstanex", "vaporizer")
  ]

  /** A weapon is coloured the same under its old and its new name. */
  lemma RenamedWeaponsShareColor(k: nat)
    requires k < |WeaponRenames|
    ensures WeaponColor(WeaponRenames[k].0).Some?
    ensures WeaponColor(WeaponRenames[k].0) == WeaponColor(WeaponRenames[k].1)
  {
  }

  /** Only the 25 codes of the table have a colour; every colour is `#`
      followed by six characters. */
  lemma WeaponTableShape(code: string)
    ensures WeaponColor(code).Some? <==> code in WeaponColors.Keys
    ensures WeaponColor(code).Some? ==> |WeaponColor(code).value| == 7 && WeaponColor(code).value[0] == '#'
  {
  }

  /** The six game types the query admits are distinct. */
  lemma GameTypesDistinct()
    ensures NoDuplicates(GameTypes)
  {
  }
}

=== FILE: wrappers.dfy ===
/** Option and Result, the failure-carrying values used across the model. */
module Wrappers {

  datatype Option<+T> = None | Some(value: T)

  /** A computation that either produced a value or failed with an error,
      the way a Python call either returns or raises. */
  datatype Result<+T, +E> = Ok(value: T) | Err(error: E)
}
